=== FILE: README.md ===
# Portfolio site animation and theme rules in Dafny

This project models the small rule-based parts of a React portfolio site. The rest of the site is markup.

- **Galaxy background.** A canvas star field with shooting stars (`GalaxyBackground`). Covered: surface sizing, quality tiers, the star count, reseeding on resize, star drift and wrap, the meteor lifecycle (spawn deadline, age fraction, fade, backward pruning), the frame throttle, and the visibility-driven `running` flag.
- **Simpler star field** (`StarBackground`). It has 150 stars, wraps them at the top edge, scales their alpha by theme, and has a teardown that leaks its frame loop.
- **Scroll-velocity marquee** (`ScrollVelocityStrip`). Covered: the modular `wrap`, the rendered offset and the per-frame step.
- **Project grid** (`Work`). Covered: the filter tabs, `withBase` links, the preview image, the status colour and the tab label.
- **Hero role scramble** (`ScrambleText` in `Hero`). Covered: the counter-driven reveal, the settle condition and the cyclic role index.
- **Splash screen timers** (`SplashScreen`) and the page's `showSplash` flag (`Index`).
- **Theme resolution** in two variants: the standalone `theme.js`, with its label `strip`, and the page effect in `Index`.

Everything is side-effect free over immutable datatypes: operations are pure functions, and the meteor pass is a method whose loop mirrors the source's backward `splice` loop. Timestamps, `Math.random()` values, sines and cosines, measured sizes, observer events and storage contents are all parameters.

- **Random draws.** Each draw is a real in [0, 1) and is indexed by where it is used: star `i` of a frame uses draw `i`.
- **Frame queue.** `requestAnimationFrame` and `cancelAnimationFrame` act on an explicit queue of frame ids (module `Frames`).
- **JavaScript `%`.** It is modelled as the remainder that truncates toward zero (`Arith.JsRem`). Dafny's own `%` is Euclidean.

Modules: `Arith`, `Wrappers`, `Frames`, `Marquee`, `GalaxySurface`, `GalaxyMeteors`, `GalaxyAnimator`, `StarField`, `Work`, `Scramble`, `Splash`, `Theme`.

## Model

| member | source | states |
|---|---|---|
| Arith.JsRemRange | src/components/ui/ScrollVelocityStrip.tsx:20 | JavaScript's `%` by a positive range keeps the dividend's sign and stays below the range in magnitude |
| Arith.ClampReal | src/components/ui/GalaxyBackground.tsx:189 | `max(lo, min(hi, x))` lies in [lo, hi], is the identity inside it and answers the nearer bound outside |
| Arith.Scaled | src/components/ui/GalaxyBackground.tsx:86 | `Math.random() * length` lies in [0, length) for a positive length |
| Marquee.Wrap | src/components/ui/ScrollVelocityStrip.tsx:17-21 | a zero-width range answers `min`; a non-empty range lands in [min, max) |
| Marquee.WrapEmptyRange | src/components/ui/ScrollVelocityStrip.tsx:17-19 | a zero-width range answers `min` |
| Marquee.WrapSpec | src/components/ui/ScrollVelocityStrip.tsx:17-21 | for min < max the result lies in [min, max) and differs from `v` by a whole number of periods |
| Marquee.WrapRange | src/components/ui/ScrollVelocityStrip.tsx:20 | for min < max the result lies in [min, max) |
| Marquee.WrapIdentity | src/components/ui/ScrollVelocityStrip.tsx:20 | values already in [min, max) are returned unchanged |
| Marquee.WrapPeriodic | src/components/ui/ScrollVelocityStrip.tsx:20 | shifting the input by any whole number of periods does not change the result |
| Marquee.WrapIdempotent | src/components/ui/ScrollVelocityStrip.tsx:20 | wrapping twice is wrapping once |
| Marquee.WrapShift | src/components/ui/ScrollVelocityStrip.tsx:17-21 | wrapping before or after subtracting an offset gives the same value |
| Marquee.DefaultSpeeds | src/components/ui/ScrollVelocityStrip.tsx:25-61 | at the default base speed of 55 the strip moves between 55 and 440 pixels per second |
| Marquee.Direction | src/components/ui/ScrollVelocityStrip.tsx:60 | direction is -1 exactly when the velocity factor is negative, 1 otherwise |
| Marquee.Speed | src/components/ui/ScrollVelocityStrip.tsx:61 | speed lies between the base speed and eight times it, and saturates once the velocity factor reaches 7 |
| Marquee.Move | src/components/ui/ScrollVelocityStrip.tsx:62 | a frame's movement has the sign of the velocity factor and the size speed x deltaMs / 1000 |
| Marquee.RenderedX | src/components/ui/ScrollVelocityStrip.tsx:52-55 | the transform is 0 while the width is unknown, otherwise in [-width, 0) |
| Marquee.Step | src/components/ui/ScrollVelocityStrip.tsx:57-64 | with no width the base offset is untouched, otherwise the new base offset lies in [-width, 0) |
| Marquee.StepMatchesUnwrapped | src/components/ui/ScrollVelocityStrip.tsx:52-64 | the rendered offset after a step is the previous rendered offset minus the move, taken modulo the width |
| Frames.Request | src/components/ui/GalaxyBackground.tsx:105 | a requested frame gets an id not already queued, and only that id joins the queue |
| Frames.Cancel | src/components/ui/GalaxyBackground.tsx:108 | cancelling removes exactly that id from the queue |
| Frames.Fire | src/components/ui/GalaxyBackground.tsx:157 | running a queued callback removes exactly its id |
| GalaxySurface.Dimension | src/components/ui/GalaxyBackground.tsx:70-71 | the measured size is floored and at least 1 |
| GalaxySurface.SelectTier | src/components/ui/GalaxyBackground.tsx:78-79 | an explicit quality wins; `auto` gives the low tier exactly when width < 640 or height < 520 |
| GalaxySurface.DensityOf | src/components/ui/GalaxyBackground.tsx:80-82 | the low tier asks for 45 to 120 stars, one per 16000 px², the normal tier 70 to 160, one per 12000 px²; each minimum is at most its maximum, which is at most 160 |
| GalaxySurface.StarTarget | src/components/ui/GalaxyBackground.tsx:83 | the count is floor(area / divisor) clamped into the tier's [min, max] |
| GalaxySurface.StarTargetExamples | src/components/ui/GalaxyBackground.tsx:78-83 | 1920x1080 on auto gives 160 stars; 320x480 is low tier and gives 45 |
| GalaxySurface.MakeStar | src/components/ui/GalaxyBackground.tsx:85-92 | a new star lies inside the surface with radius, speed, opacity and twinkle seed in their ranges |
| GalaxySurface.Seed | src/components/ui/GalaxyBackground.tsx:84-93 | reseeding creates star `i` from draw `i`, one fresh star per draw and nothing else |
| GalaxySurface.FreshIsInSurface | src/components/ui/GalaxyBackground.tsx:84-93 | a freshly seeded star satisfies the drift invariant |
| GalaxySurface.StepStar | src/components/ui/GalaxyBackground.tsx:181-185 | a star rises by its speed; past -2 it re-enters at height + 2 with a new x in [0, width) |
| GalaxySurface.StepStarStaysInSurface | src/components/ui/GalaxyBackground.tsx:180-185 | the drift keeps every star in the band between the wrap line and the re-entry line |
| GalaxySurface.StepStars | src/components/ui/GalaxyBackground.tsx:180-186 | a drawn frame steps every star and keeps the count |
| GalaxySurface.StepStarsStayInSurface | src/components/ui/GalaxyBackground.tsx:180-195 | the whole population stays in the band across a drawn frame |
| GalaxySurface.StarRgb | src/components/ui/GalaxyBackground.tsx:174 | stars are white in dark mode and black in light mode |
| GalaxySurface.StarIntensity | src/components/ui/GalaxyBackground.tsx:188 | the star theme intensity is 0.85 in dark mode and 0.18 in light mode |
| GalaxySurface.StarAlpha | src/components/ui/GalaxyBackground.tsx:187-189 | star alpha is base opacity x (0.65 + 0.35 x sine) x 0.85 in dark mode or 0.18 in light mode; the clamp to [0, 1] never changes a valid star's value |
| GalaxyMeteors.MeteorSpeed | src/components/ui/GalaxyBackground.tsx:119 | a meteor's speed lies in [9, 15) |
| GalaxyMeteors.Spawn | src/components/ui/GalaxyBackground.tsx:115-134 | a new meteor has life 0 and createdAt = now, with ttl, length, x and y in their ranges |
| GalaxyMeteors.FirstSpawnAt | src/components/ui/GalaxyBackground.tsx:63 | the first spawn deadline lies in [start + 2500, start + 7000) |
| GalaxyMeteors.NextSpawnAt | src/components/ui/GalaxyBackground.tsx:200 | after a spawn the deadline lies in [now + 3200, now + 9700) |
| GalaxyMeteors.Life | src/components/ui/GalaxyBackground.tsx:205-206 | the age fraction times the time-to-live is the elapsed time since creation |
| GalaxyMeteors.LifeFacts | src/components/ui/GalaxyBackground.tsx:205-207 | the age fraction is 0 at birth, 1 at birth + ttl and grows with time; a meteor is expired exactly from birth + ttl on |
| GalaxyMeteors.Advance | src/components/ui/GalaxyBackground.tsx:206-214 | a surviving meteor records its age and moves by exactly (vx, vy), with every other field kept |
| GalaxyMeteors.Survivors | src/components/ui/GalaxyBackground.tsx:203-214 | after the pass no expired meteor remains, every live meteor is kept in advanced form, and the list never grows |
| GalaxyMeteors.SurvivorOrigin | src/components/ui/GalaxyBackground.tsx:203-214 | every meteor after the pass is the advanced form of a live meteor from before it |
| GalaxyMeteors.SurvivorsAppend | src/components/ui/GalaxyBackground.tsx:203-210 | the pass distributes over concatenation, so survivors keep their relative order |
| GalaxyMeteors.Kept | src/components/ui/GalaxyBackground.tsx:207-214 | one meteor yields nothing exactly when expired, and its advanced form otherwise |
| GalaxyMeteors.PruneMeteors | src/components/ui/GalaxyBackground.tsx:203-214 | the backward loop with `splice` computes exactly the survivors, in order |
| GalaxyMeteors.Fade | src/components/ui/GalaxyBackground.tsx:217 | fade rises linearly to 1 over the first 15% of life, then falls linearly, and stays in [0, 1] for life in [0, 1] |
| GalaxyMeteors.FadeShape | src/components/ui/GalaxyBackground.tsx:217 | fade is 0 at life 0, 1 at 0.15 and 0 at 1, rising before the peak and falling after it |
| GalaxyMeteors.MeteorCeiling | src/components/ui/GalaxyBackground.tsx:218 | the meteor alpha ceiling is 0.75 in dark mode and 0.35 in light mode |
| GalaxyMeteors.MeteorAlpha | src/components/ui/GalaxyBackground.tsx:218 | meteor alpha never exceeds the theme ceiling (0.75 dark, 0.35 light) |
| GalaxyAnimator.Reschedule | src/components/ui/GalaxyBackground.tsx:250 | rescheduling queues one new id and changes nothing else |
| GalaxyAnimator.Resized | src/components/ui/GalaxyBackground.tsx:68-94 | resize sets both sizes to the floored measurement, at least 1, and replaces the stars with the target count, star `i` made from draw `i`, leaving the rest of the state alone |
| GalaxyAnimator.Effect | src/components/ui/GalaxyBackground.tsx:38-253 | without the canvas, its 2D context or its parent the effect sets nothing up; otherwise it mounts with the given quality and theme, the measured size, stars seeded from the draws, no meteors, the first deadline in range and one frame queued |
| GalaxyAnimator.Mount | src/components/ui/GalaxyBackground.tsx:60-253 | after mount the state keeps the quality and theme, has the measured size and stars seeded from the draws, and satisfies the invariant: running, one frame queued, no meteors, first deadline in range |
| GalaxyAnimator.Resize | src/components/ui/GalaxyBackground.tsx:68-97 | while connected the observer re-measures and reseeds, with the star count the new surface calls for and nothing else changed; a disconnected observer changes nothing |
| GalaxyAnimator.ThemeChanged | src/components/ui/GalaxyBackground.tsx:51-58 | the theme observer only updates `isDark` |
| GalaxyAnimator.Observe | src/components/ui/GalaxyBackground.tsx:100-110 | afterwards `running` says whether some entry is visible; a frame is requested only on a stopped-to-visible change and cancelled only on a running-to-hidden one |
| GalaxyAnimator.MinFrameMs | src/components/ui/GalaxyBackground.tsx:161-163 | the throttle interval is 1000/36 ms on the low tier and 1000/50 ms otherwise |
| GalaxyAnimator.WithSpawn | src/components/ui/GalaxyBackground.tsx:198-201 | exactly one meteor is appended when the deadline has passed, none otherwise |
| GalaxyAnimator.Draw | src/components/ui/GalaxyBackground.tsx:168-250 | a drawn frame records `now`, steps the stars, spawns at most once, prunes meteors, moves the deadline only after a spawn and requests the next frame |
| GalaxyAnimator.Animate | src/components/ui/GalaxyBackground.tsx:157-251 | a stopped animation does nothing; a throttled frame only requests the next frame; any other frame draws: it records `now`, steps every star, runs the meteor pass over the list with the due spawn, and moves the deadline only after a spawn; draws are spaced by at least the throttle interval |
| GalaxyAnimator.Tick | src/components/ui/GalaxyBackground.tsx:157-168 | the fired id leaves the queue; a stopped loop does nothing else; a running one queues exactly one new frame and, unless throttled, draws: it records `now`, steps the stars, runs the meteor pass and moves the deadline only after a spawn, changing no other field |
| GalaxyAnimator.Teardown | src/components/ui/GalaxyBackground.tsx:255-260 | cleanup cancels the current frame and disconnects the observers |
| GalaxyAnimator.AtMostOneLoop | src/components/ui/GalaxyBackground.tsx:100-110 | at most one frame is ever queued; while mounted, one is queued exactly when running |
| GalaxyAnimator.ResizePreservesInv | src/components/ui/GalaxyBackground.tsx:68-94 | resize keeps the invariant |
| GalaxyAnimator.ResizeForgetsStars | src/components/ui/GalaxyBackground.tsx:77-93 | the stars after a resize do not depend on the stars before it |
| GalaxyAnimator.ThemePreservesInv | src/components/ui/GalaxyBackground.tsx:51-58 | theme changes keep the invariant |
| GalaxyAnimator.ObservePreservesInv | src/components/ui/GalaxyBackground.tsx:100-110 | visibility changes keep the invariant, so they never start a second loop |
| GalaxyAnimator.TickPreservesInv | src/components/ui/GalaxyBackground.tsx:157-251 | a frame keeps the invariant: star count and band, no expired meteor, one frame queued |
| GalaxyAnimator.TeardownPreservesInv | src/components/ui/GalaxyBackground.tsx:255-260 | after cleanup nothing is queued |
| GalaxyAnimator.ThemeDoesNotSteer | src/components/ui/GalaxyBackground.tsx:157-251 | the theme changes only colours: stars, meteors, deadlines and frames come out the same |
| StarField.MakeFieldStar | src/components/ui/StarBackground.tsx:38-44 | a new star lies in the window, with size in [0, 2), speed in [0.1, 0.3) and opacity in [0, 1) |
| StarField.StepFieldStar | src/components/ui/StarBackground.tsx:62-66 | a star rises by its speed; below 0 it re-enters exactly at `height` with a new x in the window |
| StarField.FieldIntensity | src/components/ui/StarBackground.tsx:71 | the fill's theme factor is 0.9 in dark mode and 0.22 in light mode |
| StarField.StarFill | src/components/ui/StarBackground.tsx:71-73 | fill is white at opacity x 0.9 in dark mode and black at opacity x 0.22 in light mode |
| StarField.Effect | src/components/ui/StarBackground.tsx:6-80 | without the canvas or its 2D context the effect sets nothing up; otherwise it mounts with the window size, the theme, 150 stars seeded from the draws and one frame queued |
| StarField.Mount | src/components/ui/StarBackground.tsx:13-80 | mount keeps the window size and theme, seeds star `i` from draw `i` for 150 stars inside the window, and queues one frame, whose id it keeps |
| StarField.Resize | src/components/ui/StarBackground.tsx:23-31 | resize changes only the size, never the stars |
| StarField.ThemeChanged | src/components/ui/StarBackground.tsx:16-21 | the theme observer only updates `isDark` |
| StarField.Tick | src/components/ui/StarBackground.tsx:48-78 | a frame steps every star, keeps 150 stars, queues a fresh id distinct from the one that ran, and changes nothing else: size, theme, mount id and listening are kept |
| StarField.PaintFrame | src/components/ui/StarBackground.tsx:48-75 | the glow is drawn exactly in dark mode; there is one fill per star, at the star's position, in the theme colour, with alpha the star's opacity times the theme factor |
| StarField.TeardownAsWritten | src/components/ui/StarBackground.tsx:82-86 | the cleanup as written removes only the mount id from the queue |
| StarField.TeardownLeaksLoop | src/components/ui/StarBackground.tsx:77-86 | once a frame has run, the as-written cleanup leaves the loop's frame queued |
| StarField.LeakAfterOneFrame | src/components/ui/StarBackground.tsx:77-86 | mount, one frame, cleanup: a frame is still queued |
| StarField.Teardown | src/components/ui/StarBackground.tsx:82-86 | cancelling the latest id leaves nothing queued |
| Work.FilterFor | src/components/Work.tsx:5-12 | every project kind is a non-`all` filter value |
| Work.FilterProjects | src/components/Work.tsx:112-114 | the filter keeps only shown projects, keeps every shown one, and never grows the list |
| Work.FilterMembership | src/components/Work.tsx:112-114 | a project is listed exactly when it is in the list and the tab shows it |
| Work.FilterAppend | src/components/Work.tsx:112-114 | filtering distributes over concatenation, so listed projects keep their original order |
| Work.FilterAllKeepsEverything | src/components/Work.tsx:110-114 | the `all` tab lists every project in order |
| Work.KindTabsPartition | src/components/Work.tsx:110-114 | the two kind tabs together list as many projects as `all` |
| Work.StripSlash | src/components/Work.tsx:17 | at most one leading slash is removed, exactly when there is one |
| Work.WithBase | src/components/Work.tsx:17 | links start with the base URL; a path without a leading slash is only prefixed |
| Work.WithBaseSlash | src/components/Work.tsx:17 | a rooted path links like its unrooted form unless a second slash follows; a doubled slash keeps one |
| Work.Preview | src/components/Work.tsx:157-160 | the preview is the first image as a base link, and absent exactly when there are no images |
| Work.StatusClass | src/components/Work.tsx:227 | a status in the table gets its colour and any other status the fallback (statuses naming inherited object members aside, see Left out) |
| Work.StatusClassesDistinct | src/components/Work.tsx:99-105 | the table has five statuses with five different colours, is matched case-sensitively, and the fallback is not one of its colours |
| Work.UpperChar | src/components/Work.tsx:149 | ASCII lower-case letters are upper-cased and every other character is kept |
| Work.TabLabel | src/components/Work.tsx:149 | only the first character of the label changes |
| Work.TabLabels | src/components/Work.tsx:139-150 | the tabs read "All", "Projects" and "Professional" |
| Scramble.ConstantsShape | src/components/Hero.tsx:6-23 | there are five non-empty roles and a 26-character alphabet |
| Scramble.PickChar | src/components/Hero.tsx:45 | a random pick is a character of the alphabet |
| Scramble.Frame | src/components/Hero.tsx:40-48 | a scrambled frame has the role's length; positions before counter - 5 show the role, the rest show alphabet characters |
| Scramble.FullyRevealed | src/components/Hero.tsx:44 | once the counter is five past the length the frame is the role |
| Scramble.InitialShowsFirstRole | src/components/Hero.tsx:21-22 | the first render shows role 0 at index 0 |
| Scramble.Tick | src/components/Hero.tsx:30-50 | below the settle bound a tick shows a frame and raises the counter by one; at the bound it shows the role, stops the interval and schedules the next role |
| Scramble.NextIndex | src/components/Hero.tsx:35 | the next index is always a valid role index |
| Scramble.Advance | src/components/Hero.tsx:34-36 | the next role starts with a fresh counter and a running interval |
| Scramble.IndexAfterIsModular | src/components/Hero.tsx:35 | after n role changes the index is (start + n) mod 5 |
| Scramble.EveryRoleComesUp | src/components/Hero.tsx:6-12 | every role is reached within five changes from any start |
| Scramble.Run | src/components/Hero.tsx:30-50 | any number of scramble ticks keeps the scrambler well formed and keeps the role index |
| Scramble.SettlesOnTime | src/components/Hero.tsx:31-49 | the interval keeps running, one counter step per tick, until the counter reaches length + 10 |
| Splash.OutAt | src/components/SplashScreen.tsx:25 | the fade-out time is at least 600, and at most the duration exactly when the duration is at least 600 |
| Splash.DefaultOutAt | src/components/SplashScreen.tsx:13-25 | the default duration of 2100 fades out at 1650 |
| Splash.Schedule | src/components/SplashScreen.tsx:19-27 | reduced motion schedules only `onDone` at 250 ms; otherwise phase "out" at outAt and `onDone` at the duration |
| Splash.ReducedMotionNeverFades | src/components/SplashScreen.tsx:20-22 | with reduced motion no timer changes the phase |
| Splash.Start | src/components/SplashScreen.tsx:17-27 | the splash starts in phase "in", shown, with the effect's timers pending |
| Splash.Apply | src/components/SplashScreen.tsx:26-27 | one timer either sets the phase to "out" or hides the splash, nothing else |
| Splash.Fire | src/components/SplashScreen.tsx:26-27 | a fired timer leaves the queue; the phase only becomes "out" through the fade timer |
| Splash.Cleanup | src/components/SplashScreen.tsx:28-31 | cleanup clears the effect's timers and keeps everything else |
| Splash.CleanupRightAfterStart | src/components/SplashScreen.tsx:19-31 | cleanup right after the effect leaves no timer pending |
| Splash.PhaseOnlyMovesOut | src/components/SplashScreen.tsx:17-27 | "out" is never undone and a hidden splash is never shown again |
| Splash.InTimeOrder | src/components/SplashScreen.tsx:25-27 | in time order the splash fades out first and is hidden second |
| Splash.Render | src/pages/Index.tsx:26-28 | the splash renders exactly while `showSplash` holds |
| Splash.PageStaysUp | src/pages/Index.tsx:13-28 | once the page shows, the splash does not come back |
| Theme.ScriptTheme | public/projects/theme.js:2-16 | a throwing read changes nothing; a throwing write, made only when nothing usable was saved, also changes nothing; otherwise storage ends with the saved value or "dark", and the last class change adds dark exactly when "dark" was saved |
| Theme.ScriptDarkIffSavedDark | public/projects/theme.js:3-13 | without storage faults the class ends present exactly when the original saved value is "dark" |
| Theme.ScriptFirstVisit | public/projects/theme.js:4-12 | on a first visit "dark" is stored, and the class is added and then removed |
| Theme.PageTheme | src/pages/Index.tsx:15-24 | the page never removes the class, stores "dark" when nothing usable is saved, and does nothing for other saved values |
| Theme.PageDarkRule | src/pages/Index.tsx:17-23 | the page ends dark when nothing usable or "dark" was saved, and otherwise keeps the class as it was |
| Theme.VariantsDiffer | public/projects/theme.js:3-13 | both variants store the same value; their classes agree exactly when "dark" was saved, or another value was saved and the class was absent |
| Theme.SpaceRun | public/projects/theme.js:20 | the leading run of `\s` characters is maximal |
| Theme.MatchEnd | public/projects/theme.js:20 | the regex matches at the start exactly when spaces, "//" and at least one space lead the text, and the match takes every following space |
| Theme.MatchStartsAfterSpaces | public/projects/theme.js:20 | any match starts right after the leading spaces, with "//" and at least one space |
| Theme.NoMatchWithout | public/projects/theme.js:20 | without "//" and a space after the leading spaces, no prefix matches |
| Theme.NoLongerMatch | public/projects/theme.js:20 | spaces, "//" and any run of at least one space form a match |
| Theme.Strip | public/projects/theme.js:20 | the text changes exactly when it starts with a match, and then loses just that match |
| Theme.StripOnlyOnce | public/projects/theme.js:20 | "// // x" becomes "// x": one prefix only |
| Theme.StripTakesSpaces | public/projects/theme.js:20 | " // label" becomes "label" |
| Theme.StripNeedsSpaceAfterMarker | public/projects/theme.js:20 | "//label" is unchanged |
| Theme.StripRemovesLongestMatch | public/projects/theme.js:20 | the removed prefix is a match and what is left does not start with a space |
| Theme.StripValue | public/projects/theme.js:20 | non-string values are returned as they are |
| Theme.Rewrite | public/projects/theme.js:23-26 | an element is rewritten only if it has one text child and `strip` changes its text |
| Theme.RunScript | public/projects/theme.js:1-29 | the script applies the theme rule once and decides each element's rewrite on its own |
| Theme.StripRunsDespiteFaults | public/projects/theme.js:14-28 | storage faults never change which labels are rewritten |

## Left out

- Canvas drawing is not modelled: gradients, arcs, strokes, shadows, `save`/`restore`, `lineWidth`. Neither are the CSS-variable colour lookups or the meteor tail geometry (`hypot` and its 1e-3 guard). All of these are rendering calls with no state of their own.
- `Math.random()` values, timestamps, sines and cosines are inputs. A drawn frame receives one draw per star whether or not that star wraps, so the order of the random calls is not modelled.
- GalaxyMeteors.Spawn: the direction is any pair of cosine and sine in [-1, 1]. The source's angle of 7π/6 ± 0.125 and the trigonometry are not modelled.
- GalaxySurface.StarAlpha: the twinkle sine is an input in [-1, 1], not computed from the timestamp and seed.
- Numbers are reals. Integers are used only where the source's values are whole: floored or window sizes, counts, frame and timer ids, and the scramble counter. IEEE double rounding is not modelled.
- In the marquee, the framer-motion velocity pipeline is left out (`useScroll`, `useVelocity`, `useSpring`, `useTransform`). The velocity factor is an input. So is the measured sequence width, which comes from a ResizeObserver.
- React rendering, motion props and markup are left out. Only the state the effects and handlers change is modelled.
- Timers and observers are events. In the splash, the order in which timers fire is an input (`Splash.Fires`) and is not derived from their due times.
- In `Index.tsx` the theme effect has no `try`, so a throwing storage call would propagate out of the effect. That path is not modelled: `Theme.PageTheme` assumes storage answers.
- theme.js's `querySelectorAll` traversal is not modelled. The selected elements are given as a list.
- Work.StatusClass: a status that names a member inherited from `Object.prototype` (`constructor`, `toString`, `__proto__`, ...) is not modelled. The source's lookup on the object literal returns that member rather than `undefined`, so `??` would not fall back. The model gives the fallback. The project data uses none of these statuses.
- Work.UpperChar: only ASCII letters are upper-cased. The tab names are ASCII, while `toUpperCase` also maps other scripts.
- The Hero's 2000 ms timeout is not cancelled on unmount in the source, and unmounting is not modelled.
- GalaxyAnimator.Mount starts from an empty frame queue. Frames requested by other components are not modelled.
- Scramble.Run only proves the invariant and the index. `Scramble.SettlesOnTime` states the counter behaviour.

## Findings

| source | as written | input that shows it | evidently intended | confidence | as-written member | corrected member |
|---|---|---|---|---|---|---|
| src/components/ui/StarBackground.tsx:77-85 | the cleanup cancels `animationId`, the id of the first frame; the ids that `animate` requests for later frames are never stored | mount, let one frame run, unmount: the frame requested by that frame is still queued, so the loop keeps drawing after unmount (`StarField.LeakAfterOneFrame`, `StarField.TeardownLeaksLoop`) | cancel the most recently requested frame, as the galaxy background does with `raf` | high, not executed | StarField.TeardownAsWritten | StarField.Teardown |

=== FILE: arith.dfy ===
/** Numeric helpers shared by the models: clamping, JavaScript's truncating
    remainder on reals, and the "uniform draw" predicate used for every value
    that the components take from `Math.random`. */
module Arith {

  /** A value `Math.random` can return: uniform in [0, 1). */
  predicate Unit(u: real) {
    0.0 <= u < 1.0
  }

  function MaxReal(a: real, b: real): (r: real)
    ensures r >= a && r >= b
    ensures r == a || r == b
  {
    if a >= b then a else b
  }

  function MinReal(a: real, b: real): (r: real)
    ensures r <= a && r <= b
    ensures r == a || r == b
  {
    if a <= b then a else b
  }

  function AbsReal(a: real): (r: real)
    ensures r >= 0.0
    ensures r == a || r == -a
  {
    if a < 0.0 then -a else a
  }

  /** `Math.max(lo, Math.min(hi, x))` on reals. */
  function ClampReal(x: real, lo: real, hi: real): (r: real)
    requires lo <= hi
    ensures lo <= r <= hi
    ensures lo <= x <= hi ==> r == x
    ensures x < lo ==> r == lo
    ensures x > hi ==> r == hi
  {
    MaxReal(lo, MinReal(hi, x))
  }

  /** Rounding toward zero, the quotient JavaScript's `%` uses. */
  function Trunc(x: real): (n: int)
    ensures x >= 0.0 ==> n as real <= x < n as real + 1.0
    ensures x < 0.0 ==> n as real - 1.0 < x <= n as real
  {
    if x >= 0.0 then x.Floor else -((-x).Floor)
  }

  /** JavaScript's `a % b` on numbers: the remainder takes the sign of `a`. */
  function JsRem(a: real, b: real): (r: real)
    requires b != 0.0
  {
    a - b * (Trunc(a / b) as real)
  }

  /** Division by a positive number, restated as multiplication. */
  lemma DivLe(a: real, b: real, x: real)
    requires b > 0.0
    ensures x <= a / b <==> b * x <= a
  {
  }

  lemma DivLt(a: real, b: real, x: real)
    requires b > 0.0
    ensures a / b < x <==> a < b * x
  {
  }

  lemma DivGe(a: real, b: real, x: real)
    requires b > 0.0
    ensures a / b <= x <==> a <= b * x
  {
  }

  lemma MulMono(b: real, x: real, y: real)
    requires b >= 0.0 && x <= y
    ensures b * x <= b * y
  {
  }

  /** For a positive divisor the remainder lies in [0, b) when `a` is
      non-negative and in (-b, 0] when `a` is negative. */
  lemma JsRemRange(a: real, b: real)
    requires b > 0.0
    ensures a >= 0.0 ==> 0.0 <= JsRem(a, b) < b
    ensures a < 0.0 ==> -b < JsRem(a, b) <= 0.0
  {
    var n := Trunc(a / b) as real;
    assert JsRem(a, b) == a - b * n;
    if a >= 0.0 {
      DivLe(a, b, n);
      DivLt(a, b, n + 1.0);
      assert a < b * (n + 1.0);
    } else {
      DivGe(a, b, n - 1.0);
      DivGe(a, b, n);
      assert b * (n - 1.0) < a <= b * n;
    }
  }

  /** Two points of a half-open interval of width `p` that differ by a whole
      number `k` of periods are the same point. */
  lemma SamePeriodSlot(x: real, y: real, lo: real, p: real, k: int)
    requires p > 0.0
    requires lo <= x < lo + p && lo <= y < lo + p
    requires x - y == p * (k as real)
    ensures k == 0 && x == y
  {
    var d := p * (k as real);
    assert -p < d < p;
    if k >= 1 {
    } else if k <= -1 {
    }
  }

  /** Collecting whole periods: `x - m*p - n*p + p == x - (m + n - 1)*p`. */
  lemma CollectPeriods(x: real, p: real, m: int, n: int)
    ensures x - p * (m as real) + p - p * (n as real) == x - ((m + n - 1) as real) * p
  {
  }

  /** Two representatives of the same residue in one window are equal:
      `x` is `u` less `m` periods, `y` is `v` less `n` periods, and `u` is
      `v` plus `k` periods. */
  lemma SameResidue(x: real, y: real, u: real, v: real, lo: real, p: real, k: int, m: int, n: int)
    requires p > 0.0
    requires lo <= x < lo + p && lo <= y < lo + p
    requires x == u - (m as real) * p
    requires y == v - (n as real) * p
    requires u == v + (k as real) * p
    ensures x == y
  {
    assert x - y == p * ((k - m + n) as real);
    SamePeriodSlot(x, y, lo, p, k - m + n);
  }

  /** A uniform draw scaled to a positive length lands in [0, length). */
  lemma ScaleUnit(u: real, length: real)
    requires Unit(u) && length > 0.0
    ensures 0.0 <= u * length < length
  {
  }

  /** `Math.random() * length`: in [0, length), or 0 on an empty length. */
  function Scaled(u: real, length: real): (v: real)
    requires Unit(u) && length >= 0.0
    ensures 0.0 <= v <= length
    ensures length > 0.0 ==> v < length
  {
    if length > 0.0 then
      ScaleUnit(u, length);
      u * length
    else
      u * length
  }

  /** Scaling a factor in [lo, hi) by a positive length. */
  lemma ScaleBetween(length: real, c: real, lo: real, hi: real)
    requires length > 0.0 && lo <= c < hi
    ensures length * lo <= length * c < length * hi
  {
  }

  /** The product of two values in [0, 1] stays in [0, 1]. */
  lemma UnitProduct(a: real, b: real)
    requires 0.0 <= a <= 1.0 && 0.0 <= b <= 1.0
    ensures 0.0 <= a * b <= b
  {
  }
}

=== FILE: frames.dfy ===
/** The browser's animation-frame queue as the components use it:
    `requestAnimationFrame` hands out a fresh id and queues a callback,
    `cancelAnimationFrame` removes one id, and the browser running a
    callback removes it from the queue. Also what a canvas effect finds in
    the document when it runs. */
module Frames {

  /** What a canvas effect finds when it runs: the canvas element, its 2D
      context, and the canvas's parent element. */
  datatype Host = Host(canvas: bool, context: bool, parent: bool)

  datatype Scheduler = Scheduler(nextId: nat, pending: set<nat>)

  /** Every queued id was handed out earlier. */
  predicate Wf(s: Scheduler) {
    forall id :: id in s.pending ==> id < s.nextId
  }

  /** An empty queue; browsers hand out ids starting at 1. */
  const Empty: Scheduler := Scheduler(1, {})

  /** `requestAnimationFrame`: the returned id is new and now queued. */
  function Request(s: Scheduler): (r: (Scheduler, nat))
    requires Wf(s)
    ensures Wf(r.0)
    ensures r.1 !in s.pending
    ensures r.0.pending == s.pending + {r.1}
    ensures r.0.nextId > r.1
  {
    (Scheduler(s.nextId + 1, s.pending + {s.nextId}), s.nextId)
  }

  /** `cancelAnimationFrame(id)`: only that id leaves the queue. */
  function Cancel(s: Scheduler, id: nat): (r: Scheduler)
    requires Wf(s)
    ensures Wf(r)
    ensures id !in r.pending
    ensures forall other :: other != id ==> (other in r.pending <==> other in s.pending)
  {
    s.(pending := s.pending - {id})
  }

  /** The browser runs the queued callback `id`. */
  function Fire(s: Scheduler, id: nat): (r: Scheduler)
    requires Wf(s) && id in s.pending
    ensures Wf(r)
    ensures |r.pending| == |s.pending| - 1
    ensures r.pending + {id} == s.pending
  {
    s.(pending := s.pending - {id})
  }
}

=== FILE: galaxy_animator.dfy ===
/** The galaxy background's effect as a state machine
    (src/components/ui/GalaxyBackground.tsx): mount, the resize, theme and
    visibility observers, the `animate` frame callback and teardown. Every
    browser callback is an event; timestamps and random draws are inputs. */
module GalaxyAnimator {
  import opened Arith
  import opened Frames
  import opened GalaxySurface
  import opened GalaxyMeteors
  import opened Wrappers

  datatype Animator = Animator(
    quality: Quality,
    width: int, height: int,
    isDark: bool,
    stars: seq<Star>,
    meteors: seq<Meteor>,
    nextMeteorAt: real,
    running: bool,
    lastDrawAt: real,
    raf: nat,
    frames: Scheduler,
    mounted: bool)

  /** What every step needs of the state: a measured surface, a well-formed
      frame queue and meteors with a positive lifetime. */
  predicate Coherent(a: Animator) {
    a.width >= 1 && a.height >= 1 && Wf(a.frames) && PositiveTtl(a.meteors)
  }

  /** The tier and star count the current surface calls for. */
  function TierOf(a: Animator): (t: Tier) {
    SelectTier(a.quality, a.width, a.height)
  }

  /** The reachable-state invariant: the star population is the one the
      surface calls for and stays in the surface, no expired meteor is kept,
      and exactly one frame is queued while mounted and running, none
      otherwise. */
  predicate Inv(a: Animator) {
    && Coherent(a)
    && |a.stars| == StarTarget(TierOf(a), a.width, a.height)
    && AllInSurface(a.stars, a.width, a.height)
    && (forall i :: 0 <= i < |a.meteors| ==> a.meteors[i].life < 1.0)
    && a.frames.pending == (if a.mounted && a.running then {a.raf} else {})
  }

  /** `raf = requestAnimationFrame(animate)`. */
  function Reschedule(a: Animator): (b: Animator)
    requires Wf(a.frames)
    ensures Wf(b.frames)
    ensures b.raf !in a.frames.pending
    ensures b.frames.pending == a.frames.pending + {b.raf}
    ensures b == a.(raf := b.raf, frames := b.frames)
  {
    var (f, id) := Request(a.frames);
    a.(frames := f, raf := id)
  }

  /** The star draws `resize` may consume: one per star of the largest tier. */
  predicate ValidStarDraws(draws: seq<StarDraw>) {
    |draws| >= MaxStars && forall i :: 0 <= i < |draws| ==> ValidStarDraw(draws[i])
  }

  /** `resize`: measure the parent, then discard every star and seed the
      count the new surface calls for. */
  function Resized(a: Animator, measuredWidth: real, measuredHeight: real, draws: seq<StarDraw>): (b: Animator)
    requires ValidStarDraws(draws)
    ensures b.width == Dimension(measuredWidth) && b.height == Dimension(measuredHeight)
    ensures |b.stars| == StarTarget(TierOf(b), b.width, b.height)
    ensures forall i :: 0 <= i < |b.stars| ==> StarFresh(b.stars[i], b.width, b.height)
    ensures forall i :: 0 <= i < |b.stars| ==> b.stars[i] == MakeStar(b.width, b.height, draws[i])
    ensures b == a.(width := b.width, height := b.height, stars := b.stars)
  {
    var w := Dimension(measuredWidth);
    var h := Dimension(measuredHeight);
    var n := StarTarget(SelectTier(a.quality, w, h), w, h);
    a.(width := w, height := h, stars := Seed(w, h, draws[..n]))
  }

  /** The effect body: the theme is read, the first spawn deadline is set,
      `resize` runs once, `running` starts true and the first frame is
      requested. */
  function Mount(quality: Quality, isDark: bool, start: real, uFirst: real,
                 measuredWidth: real, measuredHeight: real, draws: seq<StarDraw>): (a: Animator)
    requires Unit(uFirst) && ValidStarDraws(draws)
    ensures Inv(a)
    ensures a.mounted && a.running && a.frames.pending == {a.raf}
    ensures a.meteors == [] && a.lastDrawAt == 0.0
    ensures start + 2500.0 <= a.nextMeteorAt < start + 7000.0
    ensures a.quality == quality && a.isDark == isDark
    ensures a.width == Dimension(measuredWidth) && a.height == Dimension(measuredHeight)
    ensures forall i :: 0 <= i < |a.stars| ==> a.stars[i] == MakeStar(a.width, a.height, draws[i])
  {
    var initial := Animator(quality, 0, 0, isDark, [], [], FirstSpawnAt(start, uFirst),
                            true, 0.0, 0, Frames.Empty, true);
    var sized := Resized(initial, measuredWidth, measuredHeight, draws);
    FreshStarsInSurface(sized.stars, sized.width, sized.height);
    Reschedule(sized)
  }

  /** The effect with its early returns: without the canvas, its 2D context
      or its parent nothing is set up, so no frame is queued and there is no
      cleanup to run. Otherwise the effect mounts. */
  function Effect(host: Host, quality: Quality, isDark: bool, start: real, uFirst: real,
                  measuredWidth: real, measuredHeight: real, draws: seq<StarDraw>): (r: Option<Animator>)
    requires Unit(uFirst) && ValidStarDraws(draws)
    ensures r.None? <==> !(host.canvas && host.context && host.parent)
    ensures r.Some? ==> Inv(r.value) && r.value.mounted && r.value.running
    ensures r.Some? ==> r.value.frames.pending == {r.value.raf}
    ensures r.Some? ==> |r.value.stars| == StarTarget(TierOf(r.value), r.value.width, r.value.height)
    ensures r.Some? ==> r.value.quality == quality && r.value.isDark == isDark
    ensures r.Some? ==>
      r.value.width == Dimension(measuredWidth) && r.value.height == Dimension(measuredHeight)
    ensures r.Some? ==> forall i :: 0 <= i < |r.value.stars| ==>
      r.value.stars[i] == MakeStar(r.value.width, r.value.height, draws[i])
    ensures r.Some? ==> r.value.meteors == [] && start + 2500.0 <= r.value.nextMeteorAt < start + 7000.0
  {
    if !host.canvas || !host.context || !host.parent then None
    else Some(Mount(quality, isDark, start, uFirst, measuredWidth, measuredHeight, draws))
  }

  lemma FreshStarsInSurface(stars: seq<Star>, width: int, height: int)
    requires forall i :: 0 <= i < |stars| ==> StarFresh(stars[i], width, height)
    ensures AllInSurface(stars, width, height)
  {
    forall i | 0 <= i < |stars|
      ensures StarInSurface(stars[i], width, height)
    {
      FreshIsInSurface(stars[i], width, height);
    }
  }

  /** The ResizeObserver callback; a disconnected observer delivers nothing. */
  function Resize(a: Animator, measuredWidth: real, measuredHeight: real, draws: seq<StarDraw>): (b: Animator)
    requires ValidStarDraws(draws)
    ensures !a.mounted ==> b == a
    ensures a.mounted ==>
      && b.width == Dimension(measuredWidth) && b.height == Dimension(measuredHeight)
      && |b.stars| == StarTarget(TierOf(b), b.width, b.height)
      && (forall i :: 0 <= i < |b.stars| ==> b.stars[i] == MakeStar(b.width, b.height, draws[i]))
      && b == a.(width := b.width, height := b.height, stars := b.stars)
  {
    if a.mounted then Resized(a, measuredWidth, measuredHeight, draws) else a
  }

  /** The MutationObserver on the root's class list. */
  function ThemeChanged(a: Animator, isDark: bool): (b: Animator)
    ensures a.mounted ==> b == a.(isDark := isDark)
    ensures !a.mounted ==> b == a
  {
    if a.mounted then a.(isDark := isDark) else a
  }

  /** The IntersectionObserver callback: start when something became
      visible while stopped, stop when nothing is visible while running. */
  function Observe(a: Animator, entries: seq<bool>): (b: Animator)
    requires Wf(a.frames)
    ensures Wf(b.frames)
    ensures a.mounted ==> (b.running <==> true in entries)
    ensures !a.mounted ==> b == a
    ensures a.mounted && true in entries && !a.running ==>
      b == a.(running := true, raf := b.raf, frames := b.frames)
      && b.raf !in a.frames.pending && b.frames.pending == a.frames.pending + {b.raf}
    ensures a.mounted && true !in entries && a.running ==>
      b == a.(running := false, frames := b.frames) && b.frames.pending == a.frames.pending - {a.raf}
    ensures a.mounted && (true in entries <==> a.running) ==> b == a
  {
    if !a.mounted then a
    else
      var anyVisible := true in entries;
      if anyVisible && !a.running then Reschedule(a.(running := true))
      else if !anyVisible && a.running then a.(running := false, frames := Cancel(a.frames, a.raf))
      else a
  }

  /** Minimum spacing of drawn frames: 36 fps on the low tier, 50 otherwise. */
  function MinFrameMs(t: Tier): (ms: real)
    ensures t == LowTier ==> ms == 1000.0 / 36.0
    ensures t == NormalTier ==> ms == 1000.0 / 50.0
    ensures ms > 0.0
  {
    if t == LowTier then 1000.0 / 36.0 else 1000.0 / 50.0
  }

  /** A frame is skipped when something was drawn (`lastDrawAt` is truthy)
      less than the minimum spacing ago. */
  predicate Throttled(a: Animator, now: real) {
    a.lastDrawAt != 0.0 && now - a.lastDrawAt < MinFrameMs(TierOf(a))
  }

  /** The random values and trigonometry one drawn frame may consume: one
      horizontal draw per star (used if it wraps), one meteor draw and one
      deadline draw (used if a meteor spawns). */
  datatype FrameInputs = FrameInputs(starXs: seq<real>, meteor: MeteorDraw, uNext: real)

  predicate ValidFrameInputs(fx: FrameInputs, a: Animator) {
    && |fx.starXs| == |a.stars|
    && (forall i :: 0 <= i < |fx.starXs| ==> Unit(fx.starXs[i]))
    && ValidMeteorDraw(fx.meteor)
    && Unit(fx.uNext)
  }

  /** The meteor list before the pass: one new meteor appended when due. */
  function WithSpawn(a: Animator, now: real, fx: FrameInputs): (ms: seq<Meteor>)
    requires Coherent(a) && ValidFrameInputs(fx, a)
    ensures PositiveTtl(ms)
    ensures !SpawnDue(now, a.nextMeteorAt, a.width, a.height) ==> ms == a.meteors
    ensures SpawnDue(now, a.nextMeteorAt, a.width, a.height) ==>
      ms == a.meteors + [Spawn(now, a.width, a.height, fx.meteor)]
  {
    if SpawnDue(now, a.nextMeteorAt, a.width, a.height)
    then a.meteors + [Spawn(now, a.width, a.height, fx.meteor)]
    else a.meteors
  }

  /** A frame that is not throttled: stars drift, at most one meteor spawns,
      the meteor pass runs and the next frame is requested. */
  function Draw(a: Animator, now: real, fx: FrameInputs): (b: Animator)
    requires Coherent(a) && ValidFrameInputs(fx, a)
    ensures Coherent(b)
    ensures b.lastDrawAt == now
    ensures b.stars == StepStars(a.stars, a.width, a.height, fx.starXs)
    ensures b.meteors == Survivors(WithSpawn(a, now, fx), now)
    ensures SpawnDue(now, a.nextMeteorAt, a.width, a.height) ==>
      now + 3200.0 <= b.nextMeteorAt < now + 9700.0
    ensures !SpawnDue(now, a.nextMeteorAt, a.width, a.height) ==> b.nextMeteorAt == a.nextMeteorAt
    ensures b.frames.pending == a.frames.pending + {b.raf} && b.raf !in a.frames.pending
    ensures b == a.(lastDrawAt := now, stars := b.stars, meteors := b.meteors,
                    nextMeteorAt := b.nextMeteorAt, raf := b.raf, frames := b.frames)
  {
    var due := SpawnDue(now, a.nextMeteorAt, a.width, a.height);
    Reschedule(a.(
      lastDrawAt := now,
      stars := StepStars(a.stars, a.width, a.height, fx.starXs),
      meteors := Survivors(WithSpawn(a, now, fx), now),
      nextMeteorAt := if due then NextSpawnAt(now, fx.uNext) else a.nextMeteorAt))
  }

  /** `animate(now)`: nothing while stopped; a throttled frame only asks for
      the next one; otherwise a full draw. */
  function Animate(a: Animator, now: real, fx: FrameInputs): (b: Animator)
    requires Coherent(a) && ValidFrameInputs(fx, a)
    ensures Coherent(b)
    ensures !a.running ==> b == a
    ensures a.running && Throttled(a, now) ==> b == a.(raf := b.raf, frames := b.frames)
    ensures a.running ==> b.frames.pending == a.frames.pending + {b.raf} && b.raf !in a.frames.pending
    ensures |b.stars| == |a.stars|
    ensures |b.meteors| <= |a.meteors| + 1
    ensures a.running && !Throttled(a, now) ==>
      && b.lastDrawAt == now
      && b.stars == StepStars(a.stars, a.width, a.height, fx.starXs)
      && b.meteors == Survivors(WithSpawn(a, now, fx), now)
      && (SpawnDue(now, a.nextMeteorAt, a.width, a.height) ==> now + 3200.0 <= b.nextMeteorAt < now + 9700.0)
      && (!SpawnDue(now, a.nextMeteorAt, a.width, a.height) ==> b.nextMeteorAt == a.nextMeteorAt)
      && b == a.(lastDrawAt := now, stars := b.stars, meteors := b.meteors,
                 nextMeteorAt := b.nextMeteorAt, raf := b.raf, frames := b.frames)
    ensures a.running && !Throttled(a, now) ==> forall i :: 0 <= i < |b.meteors| ==> b.meteors[i].life < 1.0
    ensures b.lastDrawAt != a.lastDrawAt ==>
      b.lastDrawAt == now && (a.lastDrawAt == 0.0 || now - a.lastDrawAt >= MinFrameMs(TierOf(a)))
  {
    if !a.running then a
    else if Throttled(a, now) then Reschedule(a)
    else Draw(a, now, fx)
  }

  /** The browser runs the queued frame callback. */
  function Tick(a: Animator, now: real, fx: FrameInputs): (b: Animator)
    requires Coherent(a) && ValidFrameInputs(fx, a) && a.raf in a.frames.pending
    ensures Coherent(b)
    ensures a.raf !in b.frames.pending
    ensures !a.running ==> b == a.(frames := b.frames) && b.frames.pending == a.frames.pending - {a.raf}
    ensures a.running ==>
      b.frames.pending == (a.frames.pending - {a.raf}) + {b.raf} && b.raf !in a.frames.pending - {a.raf}
    ensures a.running && Throttled(a, now) ==>
      b == a.(raf := b.raf, frames := b.frames)
    ensures a.running && !Throttled(a, now) ==>
      && b.lastDrawAt == now
      && b.stars == StepStars(a.stars, a.width, a.height, fx.starXs)
      && b.meteors == Survivors(WithSpawn(a, now, fx), now)
      && (SpawnDue(now, a.nextMeteorAt, a.width, a.height) ==> now + 3200.0 <= b.nextMeteorAt < now + 9700.0)
      && (!SpawnDue(now, a.nextMeteorAt, a.width, a.height) ==> b.nextMeteorAt == a.nextMeteorAt)
      && b == a.(lastDrawAt := now, stars := b.stars, meteors := b.meteors,
                 nextMeteorAt := b.nextMeteorAt, raf := b.raf, frames := b.frames)
  {
    Animate(a.(frames := Fire(a.frames, a.raf)), now, fx)
  }

  /** The effect cleanup: cancel the frame and disconnect every observer. */
  function Teardown(a: Animator): (b: Animator)
    requires Wf(a.frames)
    ensures !b.mounted && Wf(b.frames)
    ensures a.raf !in b.frames.pending
    ensures b == a.(mounted := false, frames := b.frames)
  {
    a.(mounted := false, frames := Cancel(a.frames, a.raf))
  }

  /** At most one frame is ever queued, and while mounted one is queued
      exactly when the animation is running: visibility changes never start
      a second loop. */
  lemma AtMostOneLoop(a: Animator)
    requires Inv(a)
    ensures |a.frames.pending| <= 1
    ensures a.mounted ==> (a.running <==> a.frames.pending != {})
    ensures !a.mounted ==> a.frames.pending == {}
  {
  }

  lemma ResizePreservesInv(a: Animator, measuredWidth: real, measuredHeight: real, draws: seq<StarDraw>)
    requires Inv(a) && ValidStarDraws(draws)
    ensures Inv(Resize(a, measuredWidth, measuredHeight, draws))
  {
    if a.mounted {
      var b := Resized(a, measuredWidth, measuredHeight, draws);
      FreshStarsInSurface(b.stars, b.width, b.height);
    }
  }

  /** The stars after a resize do not depend on the stars before it. */
  lemma ResizeForgetsStars(a: Animator, older: seq<Star>, measuredWidth: real, measuredHeight: real,
                           draws: seq<StarDraw>)
    requires a.mounted && ValidStarDraws(draws)
    ensures Resize(a.(stars := older), measuredWidth, measuredHeight, draws).stars
         == Resize(a, measuredWidth, measuredHeight, draws).stars
  {
  }

  lemma ThemePreservesInv(a: Animator, isDark: bool)
    requires Inv(a)
    ensures Inv(ThemeChanged(a, isDark))
  {
  }

  lemma ObservePreservesInv(a: Animator, entries: seq<bool>)
    requires Inv(a)
    ensures Inv(Observe(a, entries))
  {
  }

  lemma TickPreservesInv(a: Animator, now: real, fx: FrameInputs)
    requires Inv(a) && ValidFrameInputs(fx, a) && a.raf in a.frames.pending
    ensures Inv(Tick(a, now, fx))
  {
    var fired := a.(frames := Fire(a.frames, a.raf));
    assert fired.frames.pending == {};
    if !Throttled(fired, now) {
      StepStarsStayInSurface(a.stars, a.width, a.height, fx.starXs);
    }
  }

  lemma TeardownPreservesInv(a: Animator)
    requires Inv(a)
    ensures Inv(Teardown(a))
    ensures Teardown(a).frames.pending == {}
  {
  }

  /** The theme only colours the drawing: it never changes the stars,
      meteors, deadlines or frame queue a frame produces. */
  lemma ThemeDoesNotSteer(a: Animator, isDark: bool, now: real, fx: FrameInputs)
    requires Coherent(a) && ValidFrameInputs(fx, a)
    ensures Animate(a.(isDark := isDark), now, fx) == Animate(a, now, fx).(isDark := isDark)
  {
  }
}

=== FILE: galaxy_meteors.dfy ===
/** Meteors of the galaxy background (src/components/ui/GalaxyBackground.tsx):
    spawning, age fraction, the expiry pass over the active list, and the
    fade-in/fade-out alpha. */
module GalaxyMeteors {
  import opened Arith

  datatype Meteor = Meteor(
    x: real, y: real, vx: real, vy: real,
    life: real, ttl: real, createdAt: real, length: real)

  /** What `spawnMeteor` takes from `Math.random`, with the direction's
      cosine and sine supplied by the caller instead of computed from the
      angle. */
  datatype MeteorDraw = MeteorDraw(
    ux: real, uy: real, uSpeed: real,
    cosAngle: real, sinAngle: real,
    uTtl: real, uLength: real)

  predicate ValidMeteorDraw(d: MeteorDraw) {
    && Unit(d.ux) && Unit(d.uy) && Unit(d.uSpeed) && Unit(d.uTtl) && Unit(d.uLength)
    && -1.0 <= d.cosAngle <= 1.0 && -1.0 <= d.sinAngle <= 1.0
  }

  /** Speed magnitude of a new meteor, in pixels per drawn frame. */
  function MeteorSpeed(u: real): (s: real)
    requires Unit(u)
    ensures 9.0 <= s < 15.0
  {
    9.0 + u * 6.0
  }

  /** A new meteor: born now with life 0, starting in the upper-right part
      of the surface, moving at `MeteorSpeed` along the drawn direction. */
  function Spawn(now: real, width: int, height: int, d: MeteorDraw): (m: Meteor)
    requires width >= 1 && height >= 1 && ValidMeteorDraw(d)
    ensures m.life == 0.0 && m.createdAt == now
    ensures 900.0 <= m.ttl < 1550.0
    ensures 140.0 <= m.length < 260.0
    ensures 0.45 * width as real <= m.x < width as real
    ensures 0.05 * height as real <= m.y < 0.30 * height as real
    ensures m.vx == d.cosAngle * MeteorSpeed(d.uSpeed)
    ensures m.vy == d.sinAngle * MeteorSpeed(d.uSpeed)
  {
    ScaleBetween(width as real, 0.45 + d.ux * 0.55, 0.45, 1.0);
    ScaleBetween(height as real, 0.05 + d.uy * 0.25, 0.05, 0.30);
    Meteor(
      width as real * (0.45 + d.ux * 0.55),
      height as real * (0.05 + d.uy * 0.25),
      d.cosAngle * MeteorSpeed(d.uSpeed),
      d.sinAngle * MeteorSpeed(d.uSpeed),
      0.0,
      900.0 + d.uTtl * 650.0,
      now,
      140.0 + d.uLength * 120.0)
  }

  /** The first spawn deadline, set when the effect starts. */
  function FirstSpawnAt(start: real, u: real): (t: real)
    requires Unit(u)
    ensures start + 2500.0 <= t < start + 7000.0
  {
    start + 2500.0 + u * 4500.0
  }

  /** The deadline after a spawn. */
  function NextSpawnAt(now: real, u: real): (t: real)
    requires Unit(u)
    ensures now + 3200.0 <= t < now + 9700.0
  {
    now + 3200.0 + u * 6500.0
  }

  /** A spawn is due once the deadline has been reached (the surface is
      never empty, so the size test always passes). */
  predicate SpawnDue(now: real, nextMeteorAt: real, width: int, height: int) {
    now >= nextMeteorAt && width > 0 && height > 0
  }

  /** Age fraction: elapsed time over time-to-live. */
  function Life(m: Meteor, now: real): (life: real)
    requires m.ttl > 0.0
    ensures life * m.ttl == now - m.createdAt
  {
    (now - m.createdAt) / m.ttl
  }

  predicate Expired(m: Meteor, now: real)
    requires m.ttl > 0.0
  {
    Life(m, now) >= 1.0
  }

  /** The age fraction starts at 0, grows with time, and a meteor is expired
      exactly from `createdAt + ttl` on. */
  lemma LifeFacts(m: Meteor, now: real, later: real)
    requires m.ttl > 0.0 && now <= later
    ensures Life(m, m.createdAt) == 0.0
    ensures Life(m, m.createdAt + m.ttl) == 1.0
    ensures Life(m, now) <= Life(m, later)
    ensures Expired(m, now) <==> now >= m.createdAt + m.ttl
  {
    DivGe(now - m.createdAt, m.ttl, Life(m, later));
    DivLe(later - m.createdAt, m.ttl, Life(m, later));
    DivLe(now - m.createdAt, m.ttl, 1.0);
  }

  /** A meteor that survives the pass: age recorded, moved by its velocity. */
  function Advance(m: Meteor, now: real): (n: Meteor)
    requires m.ttl > 0.0
    ensures n.x == m.x + m.vx && n.y == m.y + m.vy
    ensures n.vx == m.vx && n.vy == m.vy && n.ttl == m.ttl
    ensures n.createdAt == m.createdAt && n.length == m.length
    ensures n.life == Life(m, now)
  {
    m.(life := Life(m, now), x := m.x + m.vx, y := m.y + m.vy)
  }

  predicate PositiveTtl(ms: seq<Meteor>) {
    forall i :: 0 <= i < |ms| ==> ms[i].ttl > 0.0
  }

  /** The meteor list after the pass, in order: expired meteors dropped,
      the others advanced. */
  function Survivors(ms: seq<Meteor>, now: real): (r: seq<Meteor>)
    requires PositiveTtl(ms)
    ensures |r| <= |ms|
    ensures PositiveTtl(r)
    ensures forall j :: 0 <= j < |r| ==> r[j].life < 1.0
    ensures forall i :: 0 <= i < |ms| && !Expired(ms[i], now) ==> Advance(ms[i], now) in r
  {
    if ms == [] then []
    else
      var rest := Survivors(ms[1..], now);
      assert forall i :: 1 <= i < |ms| ==> ms[i] == ms[1..][i - 1];
      if Expired(ms[0], now) then rest else [Advance(ms[0], now)] + rest
  }

  /** Every survivor is the advanced form of a live meteor of the input;
      `i` is the position it came from. */
  lemma {:induction false} SurvivorOrigin(ms: seq<Meteor>, now: real, j: int) returns (i: int)
    requires PositiveTtl(ms) && 0 <= j < |Survivors(ms, now)|
    ensures 0 <= i < |ms| && !Expired(ms[i], now)
    ensures Survivors(ms, now)[j] == Advance(ms[i], now)
    decreases |ms|
  {
    var rest := Survivors(ms[1..], now);
    if Expired(ms[0], now) {
      var k := SurvivorOrigin(ms[1..], now, j);
      i := k + 1;
    } else if j == 0 {
      i := 0;
    } else {
      var k := SurvivorOrigin(ms[1..], now, j - 1);
      i := k + 1;
    }
  }

  /** What the pass keeps of one meteor. */
  function Kept(m: Meteor, now: real): (r: seq<Meteor>)
    requires m.ttl > 0.0
    ensures Expired(m, now) <==> r == []
    ensures !Expired(m, now) ==> r == [Advance(m, now)]
  {
    if Expired(m, now) then [] else [Advance(m, now)]
  }

  lemma SurvivorsFrom(ms: seq<Meteor>, i: int, now: real)
    requires PositiveTtl(ms) && 0 <= i < |ms|
    ensures PositiveTtl(ms[i..]) && PositiveTtl(ms[i + 1..])
    ensures Survivors(ms[i..], now) == Kept(ms[i], now) + Survivors(ms[i + 1..], now)
  {
    assert ms[i..][1..] == ms[i + 1..];
  }

  /** The pass distributes over concatenation, so survivors keep their
      relative order and the pass can run over any split of the list. */
  lemma {:induction false} SurvivorsAppend(a: seq<Meteor>, b: seq<Meteor>, now: real)
    requires PositiveTtl(a) && PositiveTtl(b)
    ensures PositiveTtl(a + b)
    ensures Survivors(a + b, now) == Survivors(a, now) + Survivors(b, now)
    decreases |a|
  {
    if a == [] {
      assert a + b == b;
    } else {
      assert (a + b)[1..] == a[1..] + b;
      SurvivorsAppend(a[1..], b, now);
    }
  }

  /** The loop in `animate`: walk the list from the back, recording each
      meteor's age, removing it with `splice` once expired, and moving it
      otherwise. */
  method PruneMeteors(ms: seq<Meteor>, now: real) returns (out: seq<Meteor>)
    requires PositiveTtl(ms)
    ensures out == Survivors(ms, now)
  {
    var arr := ms;
    var i := |ms|;
    while i > 0
      invariant 0 <= i <= |ms|
      invariant arr == ms[..i] + Survivors(ms[i..], now)
    {
      i := i - 1;
      PruneStep(ms, arr, i, now);
      var m := arr[i];
      var life := Life(m, now);
      if life >= 1.0 {
        arr := arr[..i] + arr[i + 1..];
      } else {
        arr := arr[i := m.(life := life, x := m.x + m.vx, y := m.y + m.vy)];
      }
    }
    assert ms[..0] + Survivors(ms[0..], now) == Survivors(ms, now);
    out := arr;
  }

  /** One iteration of the backward pass: position `i` holds the original
      meteor, and removing or advancing it extends the processed suffix. */
  lemma PruneStep(ms: seq<Meteor>, arr: seq<Meteor>, i: int, now: real)
    requires PositiveTtl(ms) && 0 <= i < |ms|
    requires arr == ms[..i + 1] + Survivors(ms[i + 1..], now)
    ensures i < |arr| && arr[i] == ms[i]
    ensures Expired(ms[i], now) ==> arr[..i] + arr[i + 1..] == ms[..i] + Survivors(ms[i..], now)
    ensures !Expired(ms[i], now) ==> arr[i := Advance(ms[i], now)] == ms[..i] + Survivors(ms[i..], now)
  {
    SurvivorsFrom(ms, i, now);
    assert ms[..i + 1] == ms[..i] + [ms[i]];
    Splice(arr, ms[..i], ms[i], Survivors(ms[i + 1..], now));
  }

  /** Removing or replacing the element that sits between `pre` and
      `post`. */
  lemma Splice<T>(arr: seq<T>, pre: seq<T>, x: T, post: seq<T>)
    requires arr == pre + [x] + post
    ensures |pre| < |arr| && arr[|pre|] == x
    ensures arr[..|pre|] + arr[|pre| + 1..] == pre + post
    ensures forall y :: arr[|pre| := y] == pre + [y] + post
  {
    assert arr[..|pre|] == pre;
    assert arr[|pre| + 1..] == post;
  }

  /** Ramp in over the first 15% of life, out over the remaining 85%. */
  function Fade(life: real): (f: real)
    ensures 0.0 <= life <= 1.0 ==> 0.0 <= f <= 1.0
    ensures 0.0 <= life < 0.15 ==> f < 1.0
    ensures 0.15 <= life ==> f == (1.0 - life) / 0.85
    ensures life < 0.15 ==> f == life / 0.15
  {
    if life < 0.15 then life / 0.15 else (1.0 - life) / 0.85
  }

  /** The fade is 0 at birth, peaks at 1 at life 0.15, is 0 again at expiry,
      rises before the peak and falls after it. */
  lemma FadeShape(a: real, b: real)
    ensures Fade(0.0) == 0.0 && Fade(0.15) == 1.0 && Fade(1.0) == 0.0
    ensures 0.0 <= a <= b <= 0.15 ==> Fade(a) <= Fade(b)
    ensures 0.15 <= a <= b ==> Fade(a) >= Fade(b)
  {
  }

  /** Alpha ceiling of a meteor per theme. */
  function MeteorCeiling(isDark: bool): (c: real)
    ensures 0.0 < c < 1.0
    ensures isDark ==> c == 0.75
    ensures !isDark ==> c == 0.35
  {
    if isDark then 0.75 else 0.35
  }

  /** `clamp(fade, 0, 1) * ceiling`: never above the theme's ceiling. */
  function MeteorAlpha(life: real, isDark: bool): (a: real)
    ensures 0.0 <= a <= MeteorCeiling(isDark)
    ensures 0.0 <= life <= 1.0 ==> a == Fade(life) * MeteorCeiling(isDark)
  {
    ClampReal(Fade(life), 0.0, 1.0) * MeteorCeiling(isDark)
  }
}

=== FILE: galaxy_surface.dfy ===
/** Surface sizing, quality tiers, star seeding and the per-frame star update
    of the galaxy background (src/components/ui/GalaxyBackground.tsx). */
module GalaxySurface {
  import opened Arith

  /** The component's `quality` prop. */
  datatype Quality = Auto | Low | Normal

  /** The tier a quality setting resolves to. */
  datatype Tier = LowTier | NormalTier

  /** `Math.PI` as a double. */
  const Pi: real := 3.141592653589793

  /** `Math.max(1, Math.floor(measured))`: the canvas size along one axis. */
  function Dimension(measured: real): (d: int)
    ensures d >= 1
    ensures measured >= 1.0 ==> d as real <= measured < d as real + 1.0
    ensures measured < 1.0 ==> d == 1
  {
    if measured.Floor >= 1 then measured.Floor else 1
  }

  /** A surface narrower than 640 or shorter than 520 pixels is small. */
  predicate IsSmall(width: int, height: int) {
    width < 640 || height < 520
  }

  /** An explicit tier wins; `auto` picks `low` exactly for small surfaces. */
  function SelectTier(quality: Quality, width: int, height: int): (t: Tier)
    ensures quality == Low ==> t == LowTier
    ensures quality == Normal ==> t == NormalTier
    ensures quality == Auto ==> (t == LowTier <==> (width < 640 || height < 520))
  {
    match quality
    case Auto => if IsSmall(width, height) then LowTier else NormalTier
    case Low => LowTier
    case Normal => NormalTier
  }

  /** Star density of a tier: bounds on the count and pixels per star. */
  datatype Density = Density(minStars: nat, maxStars: nat, areaPerStar: nat)

  function DensityOf(t: Tier): (d: Density)
    ensures d.minStars <= d.maxStars && d.areaPerStar > 0
    ensures d.maxStars <= MaxStars
    ensures t == LowTier ==> d == Density(45, 120, 16000)
    ensures t == NormalTier ==> d == Density(70, 160, 12000)
  {
    match t
    case LowTier => Density(45, 120, 16000)
    case NormalTier => Density(70, 160, 12000)
  }

  /** The most stars any tier asks for. */
  const MaxStars: nat := 160

  /** `max(min, min(max, floor(width * height / denom)))`. */
  function StarTarget(t: Tier, width: int, height: int): (n: nat)
    requires width >= 1 && height >= 1
    ensures DensityOf(t).minStars <= n <= DensityOf(t).maxStars
    ensures var raw := width * height / DensityOf(t).areaPerStar;
      && (DensityOf(t).minStars <= raw <= DensityOf(t).maxStars ==> n == raw)
      && (raw < DensityOf(t).minStars ==> n == DensityOf(t).minStars)
      && (raw > DensityOf(t).maxStars ==> n == DensityOf(t).maxStars)
  {
    var d := DensityOf(t);
    var raw := width * height / d.areaPerStar;
    if raw < d.minStars then d.minStars
    else if raw > d.maxStars then d.maxStars
    else raw
  }

  lemma StarTargetExamples()
    ensures StarTarget(SelectTier(Auto, 1920, 1080), 1920, 1080) == 160
    ensures StarTarget(SelectTier(Auto, 320, 480), 320, 480) == 45
    ensures SelectTier(Auto, 320, 480) == LowTier
  {
  }

  datatype Star = Star(x: real, y: real, r: real, vy: real, baseOpacity: real, twinkleSeed: real)

  /** The six `Math.random()` values one new star consumes. */
  datatype StarDraw = StarDraw(ux: real, uy: real, ur: real, uvy: real, uo: real, useed: real)

  predicate ValidStarDraw(d: StarDraw) {
    Unit(d.ux) && Unit(d.uy) && Unit(d.ur) && Unit(d.uvy) && Unit(d.uo) && Unit(d.useed)
  }

  /** The attributes a star keeps for its whole life. */
  predicate StarAttributes(s: Star) {
    && 0.2 <= s.r < 1.9
    && 0.06 <= s.vy < 0.28
    && 0.2 <= s.baseOpacity < 1.0
    && 0.0 <= s.twinkleSeed < 2.0 * Pi
  }

  /** A freshly seeded star: inside the surface, attributes in range. */
  predicate StarFresh(s: Star, width: int, height: int) {
    && 0.0 <= s.x < width as real
    && 0.0 <= s.y < height as real
    && StarAttributes(s)
  }

  /** What stays true of a star while it drifts: horizontally inside the
      surface and vertically between the wrap line and the re-entry line. */
  predicate StarInSurface(s: Star, width: int, height: int) {
    && 0.0 <= s.x < width as real
    && -2.0 <= s.y <= height as real + 2.0
    && StarAttributes(s)
  }

  lemma FreshIsInSurface(s: Star, width: int, height: int)
    requires StarFresh(s, width, height)
    ensures StarInSurface(s, width, height)
  {
  }

  function MakeStar(width: int, height: int, d: StarDraw): (s: Star)
    requires width >= 1 && height >= 1 && ValidStarDraw(d)
    ensures StarFresh(s, width, height)
  {
    Star(Scaled(d.ux, width as real), Scaled(d.uy, height as real),
         d.ur * 1.7 + 0.2, d.uvy * 0.22 + 0.06, d.uo * 0.8 + 0.2,
         d.useed * Pi * 2.0)
  }

  /** The star population `resize` creates: one star per draw. */
  function Seed(width: int, height: int, draws: seq<StarDraw>): (stars: seq<Star>)
    requires width >= 1 && height >= 1
    requires forall i :: 0 <= i < |draws| ==> ValidStarDraw(draws[i])
    ensures |stars| == |draws|
    ensures forall i :: 0 <= i < |stars| ==> StarFresh(stars[i], width, height)
    ensures forall i :: 0 <= i < |stars| ==> stars[i] == MakeStar(width, height, draws[i])
  {
    seq(|draws|, i requires 0 <= i < |draws| => MakeStar(width, height, draws[i]))
  }

  /** One star in a drawn frame: drift up by `vy`; once above the wrap line
      at -2 it re-enters 2 pixels below the bottom edge at a new `x`. */
  function StepStar(s: Star, width: int, height: int, ux: real): (t: Star)
    requires width >= 1 && Unit(ux)
    ensures t.r == s.r && t.vy == s.vy && t.baseOpacity == s.baseOpacity && t.twinkleSeed == s.twinkleSeed
    ensures s.y - s.vy >= -2.0 ==> t.y == s.y - s.vy && t.x == s.x
    ensures s.y - s.vy < -2.0 ==> t.y == height as real + 2.0 && 0.0 <= t.x < width as real
  {
    var y := s.y - s.vy;
    if y < -2.0 then s.(y := height as real + 2.0, x := Scaled(ux, width as real))
    else s.(y := y)
  }

  /** A star never leaves the surface band while the size is unchanged. */
  lemma StepStarStaysInSurface(s: Star, width: int, height: int, ux: real)
    requires width >= 1 && height >= 1 && Unit(ux)
    requires StarInSurface(s, width, height)
    ensures StarInSurface(StepStar(s, width, height, ux), width, height)
  {
  }

  /** All stars of a drawn frame; star `i` uses draw `i` if it wraps. */
  function StepStars(stars: seq<Star>, width: int, height: int, xs: seq<real>): (r: seq<Star>)
    requires width >= 1 && |xs| == |stars|
    requires forall i :: 0 <= i < |xs| ==> Unit(xs[i])
    ensures |r| == |stars|
    ensures forall i :: 0 <= i < |r| ==> r[i] == StepStar(stars[i], width, height, xs[i])
  {
    seq(|stars|, i requires 0 <= i < |stars| => StepStar(stars[i], width, height, xs[i]))
  }

  predicate AllInSurface(stars: seq<Star>, width: int, height: int) {
    forall i :: 0 <= i < |stars| ==> StarInSurface(stars[i], width, height)
  }

  lemma StepStarsStayInSurface(stars: seq<Star>, width: int, height: int, xs: seq<real>)
    requires width >= 1 && height >= 1 && |xs| == |stars|
    requires forall i :: 0 <= i < |xs| ==> Unit(xs[i])
    requires AllInSurface(stars, width, height)
    ensures AllInSurface(StepStars(stars, width, height, xs), width, height)
  {
    var r := StepStars(stars, width, height, xs);
    forall i | 0 <= i < |r|
      ensures StarInSurface(r[i], width, height)
    {
      StepStarStaysInSurface(stars[i], width, height, xs[i]);
    }
  }

  /** Theme base intensity of a star. */
  function StarIntensity(isDark: bool): (k: real)
    ensures 0.0 < k < 1.0
    ensures isDark ==> k == 0.85
    ensures !isDark ==> k == 0.18
  {
    if isDark then 0.85 else 0.18
  }

  /** Fill colour channels: white stars in dark mode, black in light mode. */
  function StarRgb(isDark: bool): (rgb: (int, int, int))
    ensures isDark ==> rgb == (255, 255, 255)
    ensures !isDark ==> rgb == (0, 0, 0)
  {
    if isDark then (255, 255, 255) else (0, 0, 0)
  }

  /** The star's fill alpha in a frame: its base opacity times a twinkle
      factor `0.65 + 0.35 * sin(...)` times the theme intensity, clamped to
      [0, 1]. The sine value is an input. */
  function StarAlpha(s: Star, isDark: bool, sinPhase: real): (a: real)
    requires -1.0 <= sinPhase <= 1.0
    ensures 0.0 <= a <= 1.0
    ensures 0.0 <= s.baseOpacity <= 1.0 ==> a <= StarIntensity(isDark)
    ensures 0.0 <= s.baseOpacity <= 1.0 ==>
      a == s.baseOpacity * (0.65 + 0.35 * sinPhase) * StarIntensity(isDark)
  {
    var twinkle := 0.65 + 0.35 * sinPhase;
    if 0.0 <= s.baseOpacity <= 1.0 then
      UnitProduct(s.baseOpacity, twinkle);
      UnitProduct(s.baseOpacity * twinkle, StarIntensity(isDark));
      ClampReal(s.baseOpacity * twinkle * StarIntensity(isDark), 0.0, 1.0)
    else
      ClampReal(s.baseOpacity * twinkle * StarIntensity(isDark), 0.0, 1.0)
  }
}

=== FILE: marquee.dfy ===
/** The scroll-velocity marquee (src/components/ui/ScrollVelocityStrip.tsx):
    the modular `wrap` helper, the rendered offset and the per-frame step of
    the base offset. The scroll velocity factor, which framer-motion derives
    from the page's scroll position, is an input here. */
module Marquee {
  import opened Arith

  /** `wrap(min, max, v)`: fold `v` into [min, max) using JavaScript's
      truncating remainder twice; a zero-width range answers `min`. */
  function Wrap(min: real, max: real, v: real): (w: real)
    ensures min == max ==> w == min
    ensures min < max ==> min <= w < max
  {
    var range := max - min;
    if range == 0.0 then min
    else if range > 0.0 then
      JsRemRange(v - min, range);
      JsRemRange(JsRem(v - min, range) + range, range);
      JsRem(JsRem(v - min, range) + range, range) + min
    else JsRem(JsRem(v - min, range) + range, range) + min
  }

  /** For a non-empty range, `wrap` lands in [min, max) and differs from
      `v` by a whole number `turns` of periods. */
  lemma WrapSpec(min: real, max: real, v: real) returns (turns: int)
    requires min < max
    ensures min <= Wrap(min, max, v) < max
    ensures Wrap(min, max, v) == v - (turns as real) * (max - min)
  {
    var r := max - min;
    var x := v - min;
    var n1 := Trunc(x / r);
    var a := JsRem(x, r);
    JsRemRange(x, r);
    var y := a + r;
    var n2 := Trunc(y / r);
    var b := JsRem(y, r);
    JsRemRange(y, r);
    assert Wrap(min, max, v) == b + min;
    CollectPeriods(x, r, n1, n2);
    turns := n1 + n2 - 1;
  }

  /** For min < max the result lies in [min, max). */
  lemma WrapRange(min: real, max: real, v: real)
    requires min < max
    ensures min <= Wrap(min, max, v) < max
  {
    var _ := WrapSpec(min, max, v);
  }

  lemma WrapEmptyRange(m: real, v: real)
    ensures Wrap(m, m, v) == m
  {
  }

  /** Values already in [min, max) are left where they are. */
  lemma WrapIdentity(min: real, max: real, v: real)
    requires min <= v < max
    ensures Wrap(min, max, v) == v
  {
    var t := WrapSpec(min, max, v);
    SameResidue(Wrap(min, max, v), v, v, v, min, max - min, 0, t, 0);
  }

  /** Shifting the input by a whole number of periods does not change the
      result. */
  lemma WrapPeriodic(min: real, max: real, v: real, k: int)
    requires min < max
    ensures Wrap(min, max, v + (k as real) * (max - min)) == Wrap(min, max, v)
  {
    var u := v + (k as real) * (max - min);
    var t1 := WrapSpec(min, max, u);
    var t2 := WrapSpec(min, max, v);
    SameResidue(Wrap(min, max, u), Wrap(min, max, v), u, v, min, max - min, k, t1, t2);
  }

  lemma WrapIdempotent(min: real, max: real, v: real)
    requires min < max
    ensures Wrap(min, max, Wrap(min, max, v)) == Wrap(min, max, v)
  {
    var _ := WrapSpec(min, max, v);
    WrapIdentity(min, max, Wrap(min, max, v));
  }

  /** `baseSpeedPxPerSecond` defaults to 55. */
  const DefaultBaseSpeed: real := 55.0

  /** `direction`: -1 exactly when the velocity factor is negative. */
  function Direction(v: real): (d: real)
    ensures d == -1.0 <==> v < 0.0
    ensures d == 1.0 <==> v >= 0.0
  {
    if v < 0.0 then -1.0 else 1.0
  }

  /** `speed = base * (1 + min(7, |v|))`: between the base speed and eight
      times it, saturating once |v| reaches 7. */
  function Speed(baseSpeed: real, v: real): (s: real)
    requires baseSpeed >= 0.0
    ensures baseSpeed <= s <= 8.0 * baseSpeed
    ensures AbsReal(v) >= 7.0 ==> s == 8.0 * baseSpeed
    ensures AbsReal(v) <= 7.0 ==> s == baseSpeed * (1.0 + AbsReal(v))
  {
    MulMono(baseSpeed, 1.0, 1.0 + MinReal(7.0, AbsReal(v)));
    MulMono(baseSpeed, 1.0 + MinReal(7.0, AbsReal(v)), 8.0);
    baseSpeed * (1.0 + MinReal(7.0, AbsReal(v)))
  }

  /** At the default base speed the strip moves between 55 and 440 pixels
      per second: 55 at rest, and 440 once the velocity factor reaches 7
      in either direction. */
  lemma DefaultSpeeds(v: real)
    ensures 55.0 <= Speed(DefaultBaseSpeed, v) <= 440.0
    ensures Speed(DefaultBaseSpeed, 0.0) == 55.0
    ensures Move(DefaultBaseSpeed, -10.0, 1000.0) == -440.0
  {
  }

  /** Pixels the strip moves in one frame of `deltaMs` milliseconds. */
  function Move(baseSpeed: real, v: real, deltaMs: real): (m: real)
    requires baseSpeed >= 0.0
    requires deltaMs >= 0.0
    ensures v >= 0.0 ==> m >= 0.0
    ensures v < 0.0 ==> m <= 0.0
    ensures AbsReal(m) == Speed(baseSpeed, v) * (deltaMs / 1000.0)
  {
    Direction(v) * Speed(baseSpeed, v) * (deltaMs / 1000.0)
  }

  /** The `x` transform: 0 until the sequence has been measured, otherwise
      the base offset wrapped into [-sequenceWidth, 0). */
  function RenderedX(baseX: real, sequenceWidth: real): (x: real)
    requires sequenceWidth >= 0.0
    ensures sequenceWidth == 0.0 ==> x == 0.0
    ensures sequenceWidth > 0.0 ==> -sequenceWidth <= x < 0.0
  {
    if sequenceWidth == 0.0 then 0.0
    else
      WrapRange(-sequenceWidth, 0.0, baseX);
      Wrap(-sequenceWidth, 0.0, baseX)
  }

  /** One `useAnimationFrame` callback: nothing happens while the sequence
      width is unknown; otherwise the base offset moves by `-move` and is
      folded back into [-sequenceWidth, 0). */
  function Step(baseX: real, sequenceWidth: real, v: real, baseSpeed: real, deltaMs: real): (x: real)
    requires sequenceWidth >= 0.0 && baseSpeed >= 0.0 && deltaMs >= 0.0
    ensures sequenceWidth == 0.0 ==> x == baseX
    ensures sequenceWidth > 0.0 ==> -sequenceWidth <= x < 0.0
  {
    if sequenceWidth == 0.0 then baseX
    else
      var next := baseX - Move(baseSpeed, v, deltaMs);
      WrapRange(-sequenceWidth, 0.0, next);
      Wrap(-sequenceWidth, 0.0, next)
  }

  /** Wrapping before a shift and wrapping after it agree. */
  lemma WrapShift(min: real, max: real, b: real, m: real)
    requires min < max
    ensures Wrap(min, max, Wrap(min, max, b) - m) == Wrap(min, max, b - m)
  {
    var k := WrapSpec(min, max, b);
    WrapPeriodic(min, max, Wrap(min, max, b) - m, k);
    assert Wrap(min, max, b) - m + (k as real) * (max - min) == b - m;
  }

  /** Folding the offset on every frame shows the same thing as letting it
      run unbounded and folding only when rendering: the rendered offset
      after a step is the rendered offset before it, moved by `-move`, taken
      modulo the sequence width. */
  lemma StepMatchesUnwrapped(baseX: real, sequenceWidth: real, v: real, baseSpeed: real, deltaMs: real)
    requires sequenceWidth > 0.0 && baseSpeed >= 0.0 && deltaMs >= 0.0
    ensures RenderedX(Step(baseX, sequenceWidth, v, baseSpeed, deltaMs), sequenceWidth)
         == Wrap(-sequenceWidth, 0.0, RenderedX(baseX, sequenceWidth) - Move(baseSpeed, v, deltaMs))
  {
    WrapIdentity(-sequenceWidth, 0.0, Step(baseX, sequenceWidth, v, baseSpeed, deltaMs));
    WrapShift(-sequenceWidth, 0.0, baseX, Move(baseSpeed, v, deltaMs));
  }
}

=== FILE: scramble.dfy ===
/** The hero's `ScrambleText` (src/components/Hero.tsx): every 50 ms tick
    either shows a partly revealed, partly scrambled role or, once the
    counter has run long enough, settles on the role; two seconds later the
    next role starts. Timers are events here. */
module Scramble {
  import opened Arith

  const Roles: seq<string> := [
    "Systems Engineer",
    "Robotics Architect",
    "Simulation Expert",
    "Drone Pilot",
    "Builder"]

  /** The scramble alphabet; the source's one non-ASCII character is the em
      dash U+2014. */
  const Chars: string := "!<>-_\\/[]{}\U{2014}=+*^?#________"

  lemma ConstantsShape()
    ensures |Roles| == 5 && |Chars| == 26
    ensures forall i :: 0 <= i < |Roles| ==> |Roles[i]| > 0
  {
  }

  /** `chars[Math.floor(Math.random() * chars.length)]`. */
  function PickChar(u: real): (c: char)
    requires Unit(u)
    ensures c in Chars
  {
    var k := Scaled(u, |Chars| as real).Floor;
    Chars[k]
  }

  /** One scrambled rendering of `role` at `counter`: position `i` shows the
      role's own character once `i < counter - 5`, and a character of the
      alphabet otherwise. Position `i` uses draw `i`. */
  function Frame(role: string, counter: nat, draws: seq<real>): (r: string)
    requires |draws| == |role| && forall i :: 0 <= i < |draws| ==> Unit(draws[i])
    ensures |r| == |role|
    ensures forall i :: 0 <= i < |r| && i < counter - 5 ==> r[i] == role[i]
    ensures forall i :: 0 <= i < |r| && i >= counter - 5 ==> r[i] in Chars
  {
    seq(|role|, i requires 0 <= i < |role| => if i < counter - 5 then role[i] else PickChar(draws[i]))
  }

  /** Once the counter is five past the role's length every character is
      revealed. */
  lemma FullyRevealed(role: string, counter: nat, draws: seq<real>)
    requires |draws| == |role| && forall i :: 0 <= i < |draws| ==> Unit(draws[i])
    requires counter >= |role| + 5
    ensures Frame(role, counter, draws) == role
  {
  }

  /** The effect's state for the current role: the interval `ticking`, and
      `advancing` once the two-second timeout to the next role is set. */
  datatype Scrambler = Scrambler(index: nat, display: string, counter: nat, ticking: bool, advancing: bool)

  predicate Inv(s: Scrambler) {
    s.index < |Roles| && !(s.ticking && s.advancing)
  }

  function Role(s: Scrambler): (role: string)
    requires Inv(s)
  {
    Roles[s.index]
  }

  /** First render and first effect run: role 0 shown, counter 0. */
  const Initial: Scrambler := Scrambler(0, Roles[0], 0, true, false)

  lemma InitialShowsFirstRole()
    ensures Inv(Initial) && Initial.display == Roles[0] && Initial.index == 0
  {
  }

  predicate Settled(s: Scrambler)
    requires Inv(s)
  {
    s.counter >= |Role(s)| + 10
  }

  /** One interval tick. */
  function Tick(s: Scrambler, draws: seq<real>): (t: Scrambler)
    requires Inv(s) && s.ticking
    requires |draws| == |Role(s)| && forall i :: 0 <= i < |draws| ==> Unit(draws[i])
    ensures Inv(t) && t.index == s.index
    ensures Settled(s) ==> t.display == Role(s) && !t.ticking && t.advancing && t.counter == s.counter
    ensures !Settled(s) ==> t.ticking && t.counter == s.counter + 1 && |t.display| == |Role(s)|
    ensures !Settled(s) ==> t.display == Frame(Role(s), s.counter, draws)
  {
    if s.counter >= |Role(s)| + 10 then
      s.(display := Role(s), ticking := false, advancing := true)
    else
      s.(display := Frame(Role(s), s.counter, draws), counter := s.counter + 1)
  }

  /** The next role index. */
  function NextIndex(i: nat): (j: nat)
    ensures j < |Roles|
  {
    (i + 1) % |Roles|
  }

  /** The timeout fires: the next role's effect starts with a fresh counter
      and interval. */
  function Advance(s: Scrambler): (t: Scrambler)
    requires Inv(s) && s.advancing
    ensures Inv(t) && t.ticking && t.counter == 0
    ensures t.index == NextIndex(s.index) && t.display == s.display
  {
    Scrambler(NextIndex(s.index), s.display, 0, true, false)
  }

  /** The index after `n` role changes. */
  function IndexAfter(i: nat, n: nat): (j: nat)
  {
    if n == 0 then i else NextIndex(IndexAfter(i, n - 1))
  }

  lemma {:induction false} IndexAfterIsModular(i: nat, n: nat)
    requires i < |Roles|
    ensures IndexAfter(i, n) == (i + n) % |Roles|
  {
    if n > 0 {
      IndexAfterIsModular(i, n - 1);
    }
  }

  /** Every role comes up within five changes, whatever the starting one. */
  lemma EveryRoleComesUp(i: nat, k: nat) returns (n: nat)
    requires i < |Roles| && k < |Roles|
    ensures n < |Roles| && IndexAfter(i, n) == k
  {
    n := (k - i + |Roles|) % |Roles|;
    IndexAfterIsModular(i, n);
  }

  /** Running the interval for `|rounds|` ticks. */
  function Run(s: Scrambler, rounds: seq<seq<real>>): (t: Scrambler)
    requires Inv(s) && s.ticking
    requires forall k :: 0 <= k < |rounds| ==> |rounds[k]| == |Role(s)|
    requires forall k, i :: 0 <= k < |rounds| && 0 <= i < |rounds[k]| ==> Unit(rounds[k][i])
    ensures Inv(t) && t.index == s.index
    decreases |rounds|
  {
    if rounds == [] || !s.ticking then s
    else
      var next := Tick(s, rounds[0]);
      if next.ticking then Run(next, rounds[1..]) else next
  }

  /** The counter climbs by exactly one per tick and the interval keeps
      running until the counter reaches `|role| + 10`; from a fresh start
      that takes `|role| + 10` ticks, and the next tick settles. */
  lemma {:induction false} SettlesOnTime(s: Scrambler, rounds: seq<seq<real>>)
    requires Inv(s) && s.ticking && s.counter + |rounds| <= |Role(s)| + 10
    requires forall k :: 0 <= k < |rounds| ==> |rounds[k]| == |Role(s)|
    requires forall k, i :: 0 <= k < |rounds| && 0 <= i < |rounds[k]| ==> Unit(rounds[k][i])
    ensures Run(s, rounds).ticking
    ensures Run(s, rounds).counter == s.counter + |rounds|
    decreases |rounds|
  {
    if rounds != [] {
      var next := Tick(s, rounds[0]);
      SettlesOnTime(next, rounds[1..]);
    }
  }
}

=== FILE: splash.dfy ===
/** The splash screen's timers (src/components/SplashScreen.tsx) and the
    page's `showSplash` flag (src/pages/Index.tsx). Time is in milliseconds
    from the effect run; timers are a list of pending entries. */
module Splash {

  datatype Phase = In | Out

  /** What a timer does when it fires. */
  datatype Action = SetOut | Done

  datatype Timer = Timer(id: nat, at: real, action: Action)

  /** `durationMs` defaults to 2100. */
  const DefaultDurationMs: real := 2100.0

  /** With reduced motion the only timer is `onDone` after 250 ms. */
  const ReducedMotionDoneMs: real := 250.0

  /** `Math.max(600, durationMs - 450)`. */
  function OutAt(durationMs: real): (t: real)
    ensures t >= 600.0
    ensures t == 600.0 || t == durationMs - 450.0
    ensures t <= durationMs <==> durationMs >= 600.0
    ensures durationMs >= 1050.0 ==> t == durationMs - 450.0
  {
    if durationMs - 450.0 > 600.0 then durationMs - 450.0 else 600.0
  }

  lemma DefaultOutAt()
    ensures OutAt(DefaultDurationMs) == 1650.0
  {
  }

  /** The timers the effect schedules; ids are handed out from `firstId`. */
  function Schedule(durationMs: real, reducedMotion: bool, firstId: nat): (ts: seq<Timer>)
    ensures reducedMotion ==> ts == [Timer(firstId, ReducedMotionDoneMs, Done)]
    ensures !reducedMotion ==>
      (|ts| == 2
       && ts[0] == Timer(firstId, OutAt(durationMs), SetOut)
       && ts[1] == Timer(firstId + 1, durationMs, Done))
    ensures forall i, j :: 0 <= i < j < |ts| ==> ts[i].id != ts[j].id
    ensures |ts| > 0 && ts[|ts| - 1].action == Done
  {
    if reducedMotion then [Timer(firstId, ReducedMotionDoneMs, Done)]
    else [Timer(firstId, OutAt(durationMs), SetOut), Timer(firstId + 1, durationMs, Done)]
  }

  /** Only the full animation ever changes the phase. */
  lemma ReducedMotionNeverFades(durationMs: real, firstId: nat)
    ensures forall i :: 0 <= i < |Schedule(durationMs, true, firstId)| ==>
      Schedule(durationMs, true, firstId)[i].action != SetOut
  {
  }

  /** The splash with its pending timers and the page's `showSplash`. */
  datatype SplashState = SplashState(phase: Phase, pending: seq<Timer>, showSplash: bool)

  /** The page mounts with the splash shown, phase `in`, and the effect's
      timers pending. */
  function Start(durationMs: real, reducedMotion: bool, firstId: nat): (s: SplashState)
    ensures s.phase == In && s.showSplash
    ensures s.pending == Schedule(durationMs, reducedMotion, firstId)
  {
    SplashState(In, Schedule(durationMs, reducedMotion, firstId), true)
  }

  /** The effect of one timer: `setPhase("out")` or `onDone`, which is
      `setShowSplash(false)`. */
  function Apply(s: SplashState, a: Action): (t: SplashState)
    ensures t.pending == s.pending
    ensures a == SetOut ==> t.phase == Out && t.showSplash == s.showSplash
    ensures a == Done ==> !t.showSplash && t.phase == s.phase
  {
    match a
    case SetOut => s.(phase := Out)
    case Done => s.(showSplash := false)
  }

  /** The pending timer at position `i` fires and leaves the list. */
  function Fire(s: SplashState, i: nat): (t: SplashState)
    requires i < |s.pending|
    ensures |t.pending| == |s.pending| - 1
    ensures t.pending == s.pending[..i] + s.pending[i + 1..]
    ensures t.phase == Out ==> s.phase == Out || s.pending[i].action == SetOut
    ensures t.showSplash ==> s.showSplash
  {
    Apply(s, s.pending[i].action).(pending := s.pending[..i] + s.pending[i + 1..])
  }

  /** The effect cleanup clears every timer it scheduled. */
  function Cleanup(s: SplashState, durationMs: real, reducedMotion: bool, firstId: nat): (t: SplashState)
    ensures forall k :: 0 <= k < |t.pending| ==> t.pending[k] in s.pending
    ensures forall k :: 0 <= k < |t.pending| ==> t.pending[k] !in Schedule(durationMs, reducedMotion, firstId)
    ensures t.phase == s.phase && t.showSplash == s.showSplash
  {
    s.(pending := Without(s.pending, Schedule(durationMs, reducedMotion, firstId)))
  }

  /** `ts` without the timers of `gone`, in order. */
  function Without(ts: seq<Timer>, gone: seq<Timer>): (r: seq<Timer>)
    ensures forall k :: 0 <= k < |r| ==> r[k] in ts && r[k] !in gone
    ensures forall k :: 0 <= k < |ts| && ts[k] !in gone ==> ts[k] in r
  {
    if ts == [] then []
    else
      var rest := Without(ts[1..], gone);
      assert forall k :: 1 <= k < |ts| ==> ts[k] == ts[1..][k - 1];
      if ts[0] in gone then rest else [ts[0]] + rest
  }

  /** Removing a superset of the list leaves nothing. */
  lemma {:induction false} WithoutCovered(ts: seq<Timer>, gone: seq<Timer>)
    requires forall k :: 0 <= k < |ts| ==> ts[k] in gone
    ensures Without(ts, gone) == []
    decreases |ts|
  {
    if ts != [] {
      WithoutCovered(ts[1..], gone);
    }
  }

  /** Started and then cleaned up: nothing is left pending. */
  lemma CleanupRightAfterStart(durationMs: real, reducedMotion: bool, firstId: nat)
    ensures Cleanup(Start(durationMs, reducedMotion, firstId), durationMs, reducedMotion, firstId).pending == []
  {
    var ts := Schedule(durationMs, reducedMotion, firstId);
    WithoutCovered(ts, ts);
  }

  /** The phase moves from `in` to `out` and never back; the splash,
      once hidden, stays hidden. */
  lemma {:induction false} PhaseOnlyMovesOut(s: SplashState, order: seq<nat>)
    requires FiringOrderValid(s, order)
    ensures s.phase == Out ==> Fires(s, order).phase == Out
    ensures !s.showSplash ==> !Fires(s, order).showSplash
    decreases |order|
  {
    if order != [] {
      PhaseOnlyMovesOut(Fire(s, order[0]), order[1..]);
    }
  }

  /** A sequence of positions that can be fired one after another. */
  predicate FiringOrderValid(s: SplashState, order: seq<nat>)
    decreases |order|
  {
    order == [] || (order[0] < |s.pending| && FiringOrderValid(Fire(s, order[0]), order[1..]))
  }

  function Fires(s: SplashState, order: seq<nat>): (t: SplashState)
    requires FiringOrderValid(s, order)
    decreases |order|
  {
    if order == [] then s else Fires(Fire(s, order[0]), order[1..])
  }

  /** Without reduced motion and with `durationMs >= 600`, firing the
      timers in time order fades out first and then hides the splash. */
  lemma InTimeOrder(durationMs: real, firstId: nat)
    requires durationMs >= 600.0
    ensures var s := Start(durationMs, false, firstId);
            s.pending[0].at <= s.pending[1].at
            && FiringOrderValid(s, [0, 0])
            && Fires(s, [0]).phase == Out && Fires(s, [0]).showSplash
            && Fires(s, [0, 0]).phase == Out && !Fires(s, [0, 0]).showSplash
  {
    var s := Start(durationMs, false, firstId);
    var s1 := Fire(s, 0);
    assert s1.pending == [Timer(firstId + 1, durationMs, Done)];
    assert Fires(s1, [0][1..]) == s1;
    assert Fires(s, [0, 0]) == Fires(s1, [0]);
  }

  /** What the page renders. */
  datatype View = SplashView | PageView

  /** The splash while `showSplash` holds, the page afterwards. */
  function Render(s: SplashState): (v: View)
    ensures v == SplashView <==> s.showSplash
  {
    if s.showSplash then SplashView else PageView
  }

  /** Once the page shows, no timer brings the splash back. */
  lemma PageStaysUp(s: SplashState, order: seq<nat>)
    requires FiringOrderValid(s, order) && Render(s) == PageView
    ensures Render(Fires(s, order)) == PageView
  {
    PhaseOnlyMovesOut(s, order);
  }
}

=== FILE: star_field.dfy ===
/** The simpler star field (src/components/ui/StarBackground.tsx): 150 stars
    seeded once, drifting up and re-entering at the bottom edge, a theme
    scaled fill, and the effect's teardown. */
module StarField {
  import opened Arith
  import opened Frames
  import opened Wrappers

  /** The fixed population size. */
  const StarCount: nat := 150

  datatype FieldStar = FieldStar(x: real, y: real, size: real, speed: real, opacity: real)

  /** The five `Math.random()` values one star consumes when seeded. */
  datatype FieldDraw = FieldDraw(ux: real, uy: real, uSize: real, uSpeed: real, uOpacity: real)

  predicate ValidFieldDraw(d: FieldDraw) {
    Unit(d.ux) && Unit(d.uy) && Unit(d.uSize) && Unit(d.uSpeed) && Unit(d.uOpacity)
  }

  /** The attributes a star keeps for its whole life. */
  predicate FieldAttributes(s: FieldStar) {
    0.0 <= s.size < 2.0 && 0.1 <= s.speed < 0.3 && 0.0 <= s.opacity < 1.0
  }

  /** What holds of every star at every frame: never left of the origin,
      never above the top edge, attributes in range. The window may shrink,
      so nothing bounds a star from the right or below. */
  predicate Placed(s: FieldStar) {
    s.x >= 0.0 && s.y >= 0.0 && FieldAttributes(s)
  }

  /** A freshly seeded star: inside the window, attributes in range. */
  function MakeFieldStar(width: nat, height: nat, d: FieldDraw): (s: FieldStar)
    requires ValidFieldDraw(d)
    ensures Placed(s)
    ensures s.x <= width as real && (width > 0 ==> s.x < width as real)
    ensures s.y <= height as real && (height > 0 ==> s.y < height as real)
  {
    FieldStar(Scaled(d.ux, width as real), Scaled(d.uy, height as real),
              d.uSize * 2.0, d.uSpeed * 0.2 + 0.1, d.uOpacity)
  }

  predicate AllPlaced(stars: seq<FieldStar>) {
    forall i :: 0 <= i < |stars| ==> Placed(stars[i])
  }

  /** One star per frame: up by its speed; once above the top edge it
      re-enters exactly at `height` with a new `x`. */
  function StepFieldStar(s: FieldStar, width: nat, height: nat, ux: real): (t: FieldStar)
    requires Unit(ux)
    ensures t.size == s.size && t.speed == s.speed && t.opacity == s.opacity
    ensures s.y - s.speed >= 0.0 ==> t.y == s.y - s.speed && t.x == s.x
    ensures s.y - s.speed < 0.0 ==> t.y == height as real && 0.0 <= t.x <= width as real
    ensures s.y - s.speed < 0.0 && width > 0 ==> t.x < width as real
    ensures Placed(s) ==> Placed(t)
  {
    var y := s.y - s.speed;
    if y < 0.0 then s.(y := height as real, x := Scaled(ux, width as real))
    else s.(y := y)
  }

  /** The theme factor of the fill alpha. */
  function FieldIntensity(isDark: bool): (k: real)
    ensures 0.0 < k < 1.0
    ensures isDark ==> k == 0.9
    ensures !isDark ==> k == 0.22
  {
    if isDark then 0.9 else 0.22
  }

  /** One filled circle of a frame. */
  datatype Fill = Fill(x: real, y: real, radius: real, rgb: (int, int, int), alpha: real)

  /** What a frame paints: the optional radial glow, then one circle per
      star. */
  datatype Paint = Paint(glow: bool, fills: seq<Fill>)

  /** The fill of one star: white in dark mode, black in light mode, at its
      opacity scaled by the theme factor. */
  function StarFill(s: FieldStar, isDark: bool): (f: Fill)
    requires 0.0 <= s.opacity < 1.0
    ensures f.rgb == (if isDark then (255, 255, 255) else (0, 0, 0))
    ensures isDark ==> f.alpha == s.opacity * 0.9
    ensures !isDark ==> f.alpha == s.opacity * 0.22
    ensures 0.0 <= f.alpha < FieldIntensity(isDark)
    ensures f.alpha == 0.0 <==> s.opacity == 0.0
    ensures f.x == s.x && f.y == s.y && f.radius == s.size
  {
    MulMono(FieldIntensity(isDark), s.opacity, 1.0);
    Fill(s.x, s.y, s.size,
         if isDark then (255, 255, 255) else (0, 0, 0),
         s.opacity * FieldIntensity(isDark))
  }

  datatype Field = Field(
    width: nat, height: nat,
    isDark: bool,
    stars: seq<FieldStar>,
    frames: Scheduler,
    mountId: nat,
    loopId: nat,
    listening: bool)

  /** The id the browser will run next is `loopId`; `mountId` is the only
      id the effect keeps. */
  predicate Inv(f: Field) {
    && Wf(f.frames)
    && |f.stars| == StarCount
    && AllPlaced(f.stars)
    && f.mountId <= f.loopId
    && f.frames.pending <= {f.loopId}
    && (f.listening ==> f.frames.pending == {f.loopId})
  }

  /** The effect body: read the window and theme, seed 150 stars, request
      the first frame and remember its id. */
  function Mount(width: nat, height: nat, isDark: bool, draws: seq<FieldDraw>): (f: Field)
    requires |draws| >= StarCount
    requires forall i :: 0 <= i < |draws| ==> ValidFieldDraw(draws[i])
    ensures Inv(f) && f.listening
    ensures f.frames.pending == {f.mountId} && f.loopId == f.mountId
    ensures forall i :: 0 <= i < |f.stars| ==>
      f.stars[i].x <= width as real && f.stars[i].y <= height as real
    ensures f.width == width && f.height == height && f.isDark == isDark
    ensures forall i :: 0 <= i < |f.stars| ==> f.stars[i] == MakeFieldStar(width, height, draws[i])
  {
    var stars := seq(StarCount, i requires 0 <= i < StarCount => MakeFieldStar(width, height, draws[i]));
    var (frames, id) := Request(Frames.Empty);
    Field(width, height, isDark, stars, frames, id, id, true)
  }

  /** The effect with its early returns: without the canvas or its 2D
      context nothing is set up. Unlike the galaxy background it does not
      need the canvas's parent. */
  function Effect(host: Host, width: nat, height: nat, isDark: bool, draws: seq<FieldDraw>): (r: Option<Field>)
    requires |draws| >= StarCount
    requires forall i :: 0 <= i < |draws| ==> ValidFieldDraw(draws[i])
    ensures r.None? <==> !(host.canvas && host.context)
    ensures r.Some? ==> Inv(r.value) && r.value.listening && |r.value.stars| == StarCount
    ensures r.Some? ==> r.value.frames.pending == {r.value.mountId}
    ensures r.Some? ==> r.value.width == width && r.value.height == height && r.value.isDark == isDark
    ensures r.Some? ==> forall i :: 0 <= i < |r.value.stars| ==>
      r.value.stars[i] == MakeFieldStar(width, height, draws[i])
  {
    if !host.canvas || !host.context then None
    else Some(Mount(width, height, isDark, draws))
  }

  /** The window `resize` listener: only the size changes. */
  function Resize(f: Field, width: nat, height: nat): (g: Field)
    ensures f.listening ==> g == f.(width := width, height := height)
    ensures !f.listening ==> g == f
    ensures g.stars == f.stars
  {
    if f.listening then f.(width := width, height := height) else f
  }

  /** The MutationObserver on the root's class list. */
  function ThemeChanged(f: Field, isDark: bool): (g: Field)
    ensures f.listening ==> g == f.(isDark := isDark)
    ensures !f.listening ==> g == f
  {
    if f.listening then f.(isDark := isDark) else f
  }

  /** `animate`: the browser runs the queued callback, every star steps,
      and the next frame is requested. Star `i` uses draw `i` if it wraps. */
  function Tick(f: Field, xs: seq<real>): (g: Field)
    requires Inv(f) && f.loopId in f.frames.pending
    requires |xs| == |f.stars| && forall i :: 0 <= i < |xs| ==> Unit(xs[i])
    ensures Inv(g)
    ensures |g.stars| == |f.stars|
    ensures forall i :: 0 <= i < |g.stars| ==> g.stars[i] == StepFieldStar(f.stars[i], f.width, f.height, xs[i])
    ensures g.loopId != f.loopId && g.frames.pending == {g.loopId}
    ensures g.listening == f.listening && g.mountId == f.mountId
    ensures g == f.(stars := g.stars, frames := g.frames, loopId := g.loopId)
  {
    var stars := seq(|f.stars|, i requires 0 <= i < |f.stars| => StepFieldStar(f.stars[i], f.width, f.height, xs[i]));
    var (frames, id) := Request(Fire(f.frames, f.loopId));
    f.(stars := stars, frames := frames, loopId := id)
  }

  /** What a frame paints: the glow exactly in dark mode, and one fill per
      star in order. */
  function PaintFrame(f: Field): (p: Paint)
    requires Inv(f)
    ensures p.glow <==> f.isDark
    ensures |p.fills| == |f.stars|
    ensures forall i :: 0 <= i < |p.fills| ==>
      p.fills[i].x == f.stars[i].x && p.fills[i].y == f.stars[i].y
      && 0.0 <= p.fills[i].alpha < FieldIntensity(f.isDark)
    ensures forall i :: 0 <= i < |p.fills| ==>
      p.fills[i].alpha == f.stars[i].opacity * FieldIntensity(f.isDark)
      && p.fills[i].rgb == (if f.isDark then (255, 255, 255) else (0, 0, 0))
  {
    Paint(f.isDark, seq(|f.stars|, i requires 0 <= i < |f.stars| && Placed(f.stars[i]) => StarFill(f.stars[i], f.isDark)))
  }

  /** The cleanup as written: listeners detached, and only the id captured
      at mount cancelled. */
  function TeardownAsWritten(f: Field): (g: Field)
    requires Inv(f)
    ensures !g.listening && Wf(g.frames)
    ensures g.frames.pending == f.frames.pending - {f.mountId}
  {
    f.(listening := false, frames := Cancel(f.frames, f.mountId))
  }

  /** Once one frame has run, the queued id is no longer the mount id, so
      the as-written cleanup leaves the loop running after unmount. */
  lemma TeardownLeaksLoop(f: Field)
    requires Inv(f) && f.listening && f.loopId != f.mountId
    ensures TeardownAsWritten(f).frames.pending == {f.loopId}
  {
  }

  /** A concrete run: mount, one frame, cleanup; a frame is still queued. */
  lemma LeakAfterOneFrame()
    ensures var draws := seq(StarCount, i => FieldDraw(0.5, 0.5, 0.5, 0.5, 0.5));
            var xs := seq(StarCount, i => 0.5);
            var f := Tick(Mount(800, 600, true, draws), xs);
            TeardownAsWritten(f).frames.pending != {}
  {
    var draws := seq(StarCount, i => FieldDraw(0.5, 0.5, 0.5, 0.5, 0.5));
    var xs := seq(StarCount, i => 0.5);
    var m := Mount(800, 600, true, draws);
    var f := Tick(m, xs);
    TeardownLeaksLoop(f);
  }

  /** The cleanup with the latest id cancelled: nothing stays queued. */
  function Teardown(f: Field): (g: Field)
    requires Inv(f)
    ensures Inv(g) && !g.listening
    ensures g.frames.pending == {}
    ensures g.stars == f.stars
  {
    f.(listening := false, frames := Cancel(f.frames, f.loopId))
  }
}

=== FILE: theme.dfy ===
/** Theme resolution in its two variants, the standalone script
    (public/projects/theme.js) and the page's effect (src/pages/Index.tsx),
    plus the script's label clean-up `strip`. Storage is an input value and
    the root's `dark` class a boolean; class changes are recorded in order. */
module Theme {
  import opened Wrappers

  /** `localStorage.getItem("theme")` is null or a string; JavaScript
      truthiness of that value: neither null nor "". */
  predicate Truthy(saved: Option<string>) {
    saved.Some? && saved.value != ""
  }

  /** How storage behaves: `getItem` or `setItem` may throw (storage
      disabled, quota exceeded). */
  datatype StorageFaults = StorageFaults(getThrows: bool, setThrows: bool)

  const NoFaults: StorageFaults := StorageFaults(false, false)

  datatype ClassOp = AddDark | RemoveDark

  /** The class list's `dark` membership after some operations. */
  function ApplyOps(hadDark: bool, ops: seq<ClassOp>): (dark: bool)
    decreases |ops|
  {
    if ops == [] then hadDark
    else ApplyOps(ops[0] == AddDark, ops[1..])
  }

  /** The effect on the document: class operations in order, and the value
      storage holds afterwards. */
  datatype Outcome = Outcome(ops: seq<ClassOp>, stored: Option<string>)

  function DarkAfter(hadDark: bool, o: Outcome): (dark: bool) {
    ApplyOps(hadDark, o.ops)
  }

  /** The `try` block of theme.js. A throwing `getItem` skips everything; a
      throwing `setItem`, called only when nothing usable was saved, stops
      before any class change; the `catch` swallows both. */
  function ScriptTheme(saved: Option<string>, faults: StorageFaults): (o: Outcome)
    ensures faults.getThrows ==> o == Outcome([], saved)
    ensures !faults.getThrows && faults.setThrows && !Truthy(saved) ==> o == Outcome([], saved)
    ensures !faults.getThrows && (Truthy(saved) || !faults.setThrows) ==>
      o.stored == (if Truthy(saved) then saved else Some("dark"))
    ensures !faults.getThrows && (Truthy(saved) || !faults.setThrows) ==>
      |o.ops| > 0 && (o.ops[|o.ops| - 1] == AddDark <==> saved == Some("dark"))
    ensures o.stored == saved || o.stored == Some("dark")
  {
    if faults.getThrows then Outcome([], saved)
    else if !Truthy(saved) then
      if faults.setThrows then Outcome([], saved)
      else Outcome([AddDark, RemoveDark], Some("dark"))
    else if saved == Some("dark") then Outcome([AddDark], saved)
    else Outcome([RemoveDark], saved)
  }

  /** Without storage faults the script's final class is decided by the
      original saved value alone: dark exactly when it was "dark". */
  lemma ScriptDarkIffSavedDark(hadDark: bool, saved: Option<string>)
    ensures DarkAfter(hadDark, ScriptTheme(saved, NoFaults)) <==> saved == Some("dark")
  {
  }

  /** First visit: storage ends up holding "dark", yet the class, added
      first, is removed again because the test reads the original value. */
  lemma ScriptFirstVisit(hadDark: bool)
    ensures ScriptTheme(None, NoFaults) == Outcome([AddDark, RemoveDark], Some("dark"))
    ensures !DarkAfter(hadDark, ScriptTheme(None, NoFaults))
  {
  }

  /** The page's effect. It has no `try`, so storage faults are not part of
      it; it never removes the class. */
  function PageTheme(saved: Option<string>): (o: Outcome)
    ensures RemoveDark !in o.ops
    ensures o.stored == (if Truthy(saved) then saved else Some("dark"))
    ensures o.ops == [] <==> Truthy(saved) && saved != Some("dark")
  {
    if !Truthy(saved) then Outcome([AddDark], Some("dark"))
    else if saved == Some("dark") then Outcome([AddDark], saved)
    else Outcome([], saved)
  }

  /** The page's effect ends dark when nothing usable was saved or "dark"
      was, and otherwise leaves the class as it was. */
  lemma PageDarkRule(hadDark: bool, saved: Option<string>)
    ensures DarkAfter(hadDark, PageTheme(saved)) <==>
      (!Truthy(saved) || saved == Some("dark") || hadDark)
  {
  }

  /** Where the two variants disagree: they always store the same value,
      and they end with the same class exactly when "dark" was saved, or
      some other value was saved and the class was absent. */
  lemma VariantsDiffer(hadDark: bool, saved: Option<string>)
    ensures ScriptTheme(saved, NoFaults).stored == PageTheme(saved).stored
    ensures DarkAfter(hadDark, ScriptTheme(saved, NoFaults)) == DarkAfter(hadDark, PageTheme(saved))
        <==> saved == Some("dark") || (Truthy(saved) && !hadDark)
  {
    ScriptDarkIffSavedDark(hadDark, saved);
    PageDarkRule(hadDark, saved);
  }

  /** The characters JavaScript's `\s` matches: the white space and line
      terminator characters of ECMAScript. */
  predicate IsSpace(c: char) {
    || c == '\t' || c == '\n' || c == '\U{B}' || c == '\U{C}' || c == '\r'
    || c == ' ' || c == '\U{A0}' || c == '\U{1680}'
    || ('\U{2000}' <= c <= '\U{200A}')
    || c == '\U{2028}' || c == '\U{2029}' || c == '\U{202F}' || c == '\U{205F}'
    || c == '\U{3000}' || c == '\U{FEFF}'
  }

  /** Length of the run of `\s` characters at the start of `s`. */
  function SpaceRun(s: string): (n: nat)
    ensures n <= |s|
    ensures forall i :: 0 <= i < n ==> IsSpace(s[i])
    ensures n < |s| ==> !IsSpace(s[n])
  {
    if s == [] || !IsSpace(s[0]) then 0
    else
      var k := SpaceRun(s[1..]);
      assert forall i :: 1 <= i <= k ==> s[i] == s[1..][i - 1];
      1 + k
  }

  /** `s[..k]` is a match of `^\s*\/\/\s+`: spaces, "//", at least one
      space. */
  predicate PrefixMatch(s: string, k: int) {
    k <= |s| && exists a :: 0 <= a < k && SlashesAt(s, a, k)
  }

  /** The match `s[..k]` has its "//" at position `a`. */
  predicate SlashesAt(s: string, a: int, k: int) {
    && 0 <= a && a + 3 <= k && k <= |s|
    && (forall i :: 0 <= i < a ==> IsSpace(s[i]))
    && s[a] == '/' && s[a + 1] == '/'
    && (forall i :: a + 2 <= i < k ==> IsSpace(s[i]))
  }

  /** The end of the regex match at the start of `s`, if there is one: the
      quantifiers are greedy, so the match takes every space after "//". */
  function MatchEnd(s: string): (r: Option<nat>)
    ensures r.Some? ==> PrefixMatch(s, r.value) && (r.value == |s| || !IsSpace(s[r.value]))
    ensures r.None? ==> forall k :: 0 <= k <= |s| ==> !PrefixMatch(s, k)
  {
    var a := SpaceRun(s);
    if a + 2 < |s| && s[a] == '/' && s[a + 1] == '/' && IsSpace(s[a + 2]) then
      var b := SpaceRun(s[a + 2..]);
      assert forall i :: a + 2 <= i < a + 2 + b ==> s[i] == s[a + 2..][i - (a + 2)];
      NoLongerMatch(s, a, a + 2 + b);
      Some(a + 2 + b)
    else
      NoMatchWithout(s, a);
      None
  }

  /** With the leading space run ending at `a`, any match starts its "//"
      at `a`. */
  lemma MatchStartsAfterSpaces(s: string, a: nat, k: int)
    requires a <= |s| && (forall i :: 0 <= i < a ==> IsSpace(s[i])) && (a < |s| ==> !IsSpace(s[a]))
    requires PrefixMatch(s, k)
    ensures a + 3 <= k && s[a] == '/' && s[a + 1] == '/' && (forall i :: a + 2 <= i < k ==> IsSpace(s[i]))
  {
    var b :| 0 <= b < k && SlashesAt(s, b, k);
    assert s[b] == '/';
  }

  lemma NoMatchWithout(s: string, a: nat)
    requires a <= |s| && (forall i :: 0 <= i < a ==> IsSpace(s[i])) && (a < |s| ==> !IsSpace(s[a]))
    requires !(a + 2 < |s| && s[a] == '/' && s[a + 1] == '/' && IsSpace(s[a + 2]))
    ensures forall k :: 0 <= k <= |s| ==> !PrefixMatch(s, k)
  {
    forall k | 0 <= k <= |s| && PrefixMatch(s, k)
      ensures false
    {
      MatchStartsAfterSpaces(s, a, k);
    }
  }

  lemma NoLongerMatch(s: string, a: nat, e: nat)
    requires a + 3 <= e <= |s|
    requires (forall i :: 0 <= i < a ==> IsSpace(s[i])) && !IsSpace(s[a])
    requires s[a] == '/' && s[a + 1] == '/'
    requires forall i :: a + 2 <= i < e ==> IsSpace(s[i])
    ensures PrefixMatch(s, e)
  {
    assert SlashesAt(s, a, e);
  }

  /** `s.replace(/^\s*\/\/\s+/, "")`: the first (and only possible) match
      at the start is removed; the regex has no `g` flag. */
  function Strip(s: string): (r: string)
    ensures MatchEnd(s).None? ==> r == s
    ensures MatchEnd(s).Some? ==> r == s[MatchEnd(s).value..] && |r| < |s|
    ensures r != s <==> exists k :: 0 <= k <= |s| && PrefixMatch(s, k)
  {
    var m := MatchEnd(s);
    if m.None? then s else s[m.value..]
  }

  /** Only the first prefix goes: a doubled comment marker keeps one. */
  lemma StripOnlyOnce()
    ensures Strip("// // x") == "// x"
  {
    assert SpaceRun("// // x") == 0;
    assert SpaceRun("// // x"[2..]) == 1 by {
      assert "// // x"[2..] == " // x";
      assert SpaceRun(" // x"[1..]) == 0 by { assert " // x"[1..] == "// x"; }
    }
    assert "// // x"[3..] == "// x";
  }

  /** Leading spaces and the spaces after the marker go with it. */
  lemma StripTakesSpaces()
    ensures Strip(" // label") == "label"
  {
    var s := " // label";
    assert SpaceRun(s) == 1 by {
      assert s[1..] == "// label";
    }
    assert SpaceRun(s[3..]) == 1 by {
      assert s[3..] == " label";
      assert s[3..][1..] == "label";
    }
    assert MatchEnd(s) == Some(4);
    assert s[4..] == "label";
  }

  /** The marker needs a space after it. */
  lemma StripNeedsSpaceAfterMarker()
    ensures Strip("//label") == "//label"
  {
    assert SpaceRun("//label") == 0;
  }

  /** What `strip` removes is a match of the pattern, and the longest one:
      the text left over does not start with a space. */
  lemma StripRemovesLongestMatch(s: string)
    ensures Strip(s) != s ==>
      exists k :: 0 <= k <= |s| && PrefixMatch(s, k) && Strip(s) == s[k..]
        && (|Strip(s)| == 0 || !IsSpace(Strip(s)[0]))
  {
    var m := MatchEnd(s);
    if m.Some? {
      assert Strip(s) == s[m.value..];
    }
  }

  /** `strip`'s argument: a string or any other JavaScript value. */
  datatype JsValue = Str(s: string) | NonString(tag: nat)

  /** `typeof s === "string" ? ... : s`. */
  function StripValue(v: JsValue): (r: JsValue)
    ensures v.NonString? ==> r == v
    ensures v.Str? ==> r == Str(Strip(v.s))
  {
    if v.Str? then Str(Strip(v.s)) else v
  }

  datatype NodeType = TextNode | ElementNode | CommentNode

  /** An element the selector picked: its children's node types and its
      `textContent` (null only on documents and doctypes). */
  datatype Element = Element(children: seq<NodeType>, textContent: Option<string>)

  /** The new text of an element, if it is rewritten: only a lone text child
      whose text `strip` changes. */
  function Rewrite(el: Element): (r: Option<string>)
    ensures r.Some? <==>
      |el.children| == 1 && el.children[0] == TextNode
      && Strip(if el.textContent.Some? then el.textContent.value else "")
         != (if el.textContent.Some? then el.textContent.value else "")
    ensures r.Some? ==> r.value == Strip(if el.textContent.Some? then el.textContent.value else "")
  {
    if |el.children| == 1 && el.children[0] == TextNode then
      var t := if el.textContent.Some? then el.textContent.value else "";
      var next := Strip(t);
      if next != t then Some(next) else None
    else None
  }

  /** The whole script: the theme outcome and, per selected element, its
      new text if it is rewritten. */
  datatype ScriptResult = ScriptResult(theme: Outcome, rewrites: seq<Option<string>>)

  function RunScript(saved: Option<string>, faults: StorageFaults, els: seq<Element>): (r: ScriptResult)
    ensures r.theme == ScriptTheme(saved, faults)
    ensures |r.rewrites| == |els|
    ensures forall i :: 0 <= i < |els| ==> r.rewrites[i] == Rewrite(els[i])
  {
    ScriptResult(ScriptTheme(saved, faults), seq(|els|, i requires 0 <= i < |els| => Rewrite(els[i])))
  }

  /** A storage exception is swallowed: the labels are cleaned up all the
      same, whatever storage does. */
  lemma StripRunsDespiteFaults(saved: Option<string>, f1: StorageFaults, f2: StorageFaults, els: seq<Element>)
    ensures RunScript(saved, f1, els).rewrites == RunScript(saved, f2, els).rewrites
  {
  }
}

=== FILE: work.dfy ===
/** The project grid (src/components/Work.tsx): the filter tabs, the list
    filter, base-relative links, the preview image and the status colour. */
module Work {
  import opened Wrappers

  /** The tabs. */
  datatype Filter = All | OnlyProjects | OnlyProfessional

  /** A project's kind: every filter except `all`. */
  datatype Kind = Projects | Professional

  datatype Project = Project(
    category: string, title: string, status: string, description: string,
    kind: Kind, href: string, previews: seq<string>)

  /** The filter value that shows exactly the projects of one kind. */
  function FilterFor(k: Kind): (f: Filter)
    ensures f != All
  {
    match k
    case Projects => OnlyProjects
    case Professional => OnlyProfessional
  }

  /** `filter === "all" || project.type === filter`. */
  predicate Shows(f: Filter, p: Project) {
    f == All || f == FilterFor(p.kind)
  }

  /** `projects.filter(...)`: the projects the tab shows, in list order. */
  function FilterProjects(ps: seq<Project>, f: Filter): (r: seq<Project>)
    ensures |r| <= |ps|
    ensures forall j :: 0 <= j < |r| ==> Shows(f, r[j]) && r[j] in ps
    ensures forall i :: 0 <= i < |ps| && Shows(f, ps[i]) ==> ps[i] in r
  {
    if ps == [] then []
    else
      var rest := FilterProjects(ps[1..], f);
      assert forall i :: 1 <= i < |ps| ==> ps[i] == ps[1..][i - 1];
      if Shows(f, ps[0]) then [ps[0]] + rest else rest
  }

  /** A project is listed exactly when it is in the list and the tab shows
      it. */
  lemma FilterMembership(ps: seq<Project>, f: Filter, p: Project)
    ensures p in FilterProjects(ps, f) <==> p in ps && Shows(f, p)
  {
  }

  /** Filtering distributes over concatenation, so the relative order of the
      listed projects is the order of the input. */
  lemma {:induction false} FilterAppend(a: seq<Project>, b: seq<Project>, f: Filter)
    ensures FilterProjects(a + b, f) == FilterProjects(a, f) + FilterProjects(b, f)
    decreases |a|
  {
    if a == [] {
      assert a + b == b;
    } else {
      assert (a + b)[1..] == a[1..] + b;
      FilterAppend(a[1..], b, f);
    }
  }

  /** The `all` tab lists every project in its original order. */
  lemma {:induction false} FilterAllKeepsEverything(ps: seq<Project>)
    ensures FilterProjects(ps, All) == ps
    decreases |ps|
  {
    if ps != [] {
      FilterAllKeepsEverything(ps[1..]);
    }
  }

  /** The two kind tabs split the list: together they hold as many projects
      as the `all` tab. */
  lemma {:induction false} KindTabsPartition(ps: seq<Project>)
    ensures |FilterProjects(ps, OnlyProjects)| + |FilterProjects(ps, OnlyProfessional)|
         == |FilterProjects(ps, All)|
    decreases |ps|
  {
    if ps != [] {
      KindTabsPartition(ps[1..]);
    }
  }

  /** `p.replace(/^\//, "")`: one leading slash, if there is one, goes. */
  function StripSlash(p: string): (r: string)
    ensures p == r || p == "/" + r
    ensures |p| > 0 && p[0] == '/' <==> |r| < |p|
  {
    if |p| > 0 && p[0] == '/' then p[1..] else p
  }

  /** `withBase(p)`: the base URL followed by the path with at most one
      leading slash removed. */
  function WithBase(base: string, p: string): (r: string)
    ensures |r| >= |base| && r[..|base|] == base
    ensures var rest := r[|base|..]; rest == p || "/" + rest == p
    ensures |p| == 0 || p[0] != '/' ==> r == base + p
  {
    base + StripSlash(p)
  }

  /** A rooted path and the same path without its slash give the same link;
      only the first slash is removed, so a doubled one leaves one behind. */
  lemma WithBaseSlash(base: string, q: string)
    ensures WithBase(base, "/" + q) == WithBase(base, q) <==> (|q| == 0 || q[0] != '/')
    ensures WithBase(base, "//" + q) == base + "/" + q
  {
    assert ("/" + q)[1..] == q;
    assert ("//" + q)[1..] == "/" + q;
  }

  /** The card preview: the first preview image as a base-relative link, or
      none when the project has no previews. */
  function Preview(base: string, p: Project): (r: Option<string>)
    ensures r.None? <==> p.previews == []
    ensures r.Some? ==> r.value == WithBase(base, p.previews[0])
  {
    if |p.previews| > 0 then Some(WithBase(base, p.previews[0])) else None
  }

  /** The `statusColors` table. */
  const StatusColors: map<string, string> := map[
    "COMPLETED" := "text-green-400",
    "ACTIVE_DEV" := "text-primary",
    "RESEARCH_PHASE" := "text-yellow-400",
    "VALIDATED" := "text-blue-400",
    "DEPLOYED" := "text-purple-400"]

  const FallbackStatusClass: string := "text-muted-foreground"

  /** `statusColors[status] ?? "text-muted-foreground"`. */
  function StatusClass(status: string): (c: string)
    ensures status in StatusColors ==> c == StatusColors[status]
    ensures status !in StatusColors ==> c == FallbackStatusClass
    ensures c in StatusColors.Values || c == FallbackStatusClass
  {
    if status in StatusColors then StatusColors[status] else FallbackStatusClass
  }

  /** The five known statuses get five different colours, none of which is
      the fallback; anything else, such as a lower-case status, falls back. */
  lemma StatusClassesDistinct()
    ensures StatusClass("COMPLETED") == "text-green-400"
    ensures StatusClass("DEPLOYED") == "text-purple-400"
    ensures StatusClass("completed") == FallbackStatusClass
    ensures FallbackStatusClass !in StatusColors.Values
    ensures |StatusColors| == 5
    ensures forall a, b :: a in StatusColors && b in StatusColors && a != b ==>
      StatusColors[a] != StatusColors[b]
  {
    assert StatusColors["COMPLETED"] == "text-green-400";
    assert "completed" !in StatusColors;
    assert StatusColors.Keys == {"COMPLETED", "ACTIVE_DEV", "RESEARCH_PHASE", "VALIDATED", "DEPLOYED"};
  }

  /** The tab's value as written in the source. */
  function FilterName(f: Filter): (name: string) {
    match f
    case All => "all"
    case OnlyProjects => "projects"
    case OnlyProfessional => "professional"
  }

  /** `toUpperCase` on one character, for the ASCII letters. */
  function UpperChar(c: char): (u: char)
    ensures 'a' <= c <= 'z' ==> 'A' <= u <= 'Z' && u as int == c as int - 32
    ensures !('a' <= c <= 'z') ==> u == c
  {
    if 'a' <= c <= 'z' then (c as int - 32) as char else c
  }

  /** `tab.charAt(0).toUpperCase() + tab.slice(1)`: only the first character
      changes. */
  function TabLabel(tab: string): (r: string)
    ensures |r| == |tab|
    ensures |tab| > 0 ==> r[0] == UpperChar(tab[0]) && r[1..] == tab[1..]
  {
    if tab == [] then [] else [UpperChar(tab[0])] + tab[1..]
  }

  lemma TabLabels()
    ensures TabLabel(FilterName(All)) == "All"
    ensures TabLabel(FilterName(OnlyProjects)) == "Projects"
    ensures TabLabel(FilterName(OnlyProfessional)) == "Professional"
  {
  }
}

=== FILE: wrappers.dfy ===
/** Optional values, for JavaScript's `null`. */
module Wrappers {
  datatype Option<T> = None | Some(value: T)
}
